=== FILE: README.md ===
# S3 jukebox: the listing interpretation pipeline in Dafny

The jukebox plays `.mp3` files from a public Amazon S3 bucket. It has two
front ends with the same core, an Angular `S3Service` and a vanilla
`jukebox.js` page. The core does the following:

- builds the listing URLs from the bucket configuration: the root listing
  with `?delimiter=/`, and a folder listing with `?prefix=` plus the
  percent-encoded folder prefix;
- reads the parsed ListObjects response: an `Error` element, the
  `CommonPrefixes` (folders) and the `Contents` (objects);
- filters the objects down to `.mp3` keys of positive size;
- names each file by removing the folder prefix from its key;
- builds each file's public URL by percent-encoding the key one
  `/`-separated segment at a time.

The two front ends differ in what they do when something goes wrong. The
service replaces any failure by fixed mock data. The page shows an error
banner and placeholder lines, and previews fixed mock data when the bucket
name or region equals the sentinel `your-bucket-name-here` /
`your-region-here`. The constants the code ships with, "tasty-mixes" in
"us-east-1", are a configured bucket, so as shipped the page lists the real
bucket and never previews mock data.

The model states all of this as pure functions over immutable datatypes:

| module | models |
|---|---|
| `Wrappers` | `Option` and `Result` |
| `Seqs` | `FilterMap` (map-and-drop, the shape of every `forEach` + `push` scan) and `Kept`, the positions it keeps |
| `JsString` | `endsWith`, `indexOf`, `replace` with a string pattern, `split` and `join` on one character |
| `JsNumber` | `parseInt` without a radix (ECMA-262, section 19.2.5) and the decimal rendering of a status code |
| `Uri` | `encodeURIComponent` over UTF-8 (ECMA-262, section 19.2.6.5; percent triplets as in section 2.1 of RFC 3986) and `decodeURIComponent` as the reference it is checked against |
| `Endpoints` | the bucket configuration, `isConfigured`, and the three URLs |
| `Listing` | the parsed response, the error/HTTP checks, and folder and file extraction shared by both front ends |
| `S3Service` | the Angular service: configuration state, mock fallback data, `fetchFolders`, `fetchFiles` |
| `Jukebox` | the page: banner, folder and file lists, placeholders, the `mp3Found` loop, preview mode, start-up |

`fetch` is a parameter `respond: string -> Response`: the answer the
network gives to a URL, either a rejection with its message or a status
with the parsed body. A property such as "no request is made" therefore
reads "the result is the same for any two networks".

Three behaviours of the code are worth stating plainly, since a reader
might expect otherwise:

- **The service never checks `isConfigured`.** `fetchFolders`/`fetchFiles`
  request the configured bucket even when its name or region is a sentinel,
  and fall back to mocks only if that request fails
  (`S3Service.FetchFoldersOutcome`). Only the page skips the network for a
  sentinel configuration (`Jukebox.StartupUnconfigured`).
- **The page never substitutes mocks for a failed listing.** On failure
  `listFiles` shows an error banner and leaves "Loading..." in the file list
  (`Jukebox.ListFilesErrorElement`). `listFolders` shows a banner and keeps
  the previous folder list (`Jukebox.ListFoldersFailures`).
- **The display name drops the first occurrence of the prefix anywhere.**
  `key.replace(prefix, '')` removes the first occurrence of the prefix
  wherever it is, not only a leading one
  (`JsString.ReplaceFirstRemovesInnerOccurrence`). For keys that start with
  the prefix this is the same as stripping it (`Listing.FileNameInsideFolder`).

## Model

| member | source | states |
|---|---|---|
| Endpoints.SentinelEitherSuffices | jukebox.js:19 | the bucket counts as unconfigured exactly when the bucket name equals "your-bucket-name-here" or the region equals "your-region-here"; either sentinel alone is enough |
| S3Service.New | src/app/services/s3.service.ts:26-29 | a fresh service holds bucket "tasty-mixes" in "us-east-1", which counts as configured |
| S3Service.ConfigRoundTrip | src/app/services/s3.service.ts:33-44 | the configuration read back is the one last set; setting what was read changes nothing; `isConfigured` of a set configuration tests both sentinels |
| Endpoints.ListingUrlsDiffer | src/app/services/s3.service.ts:57 | the root listing URL (also jukebox.js:57) is the bucket origin followed by a query that sends the '/' delimiter raw; a folder listing URL has the same origin but no raw '/' in its query, so the two requests never coincide |
| Endpoints.FilesUrlQuery | src/app/services/s3.service.ts:105-106 | the folder listing URL is origin + "?prefix=" + a value with no raw '/' that decodes back to the prefix |
| Uri.EncodeURIComponent | src/app/services/s3.service.ts:105 | the encoding consists only of unreserved characters and '%', so no '/' survives it |
| Uri.DecodeEncode | src/app/services/s3.service.ts:139 | decoding the percent-encoding of any string gives that string back |
| Uri.EncodeInjective | src/app/services/s3.service.ts:139 | different strings never encode the same |
| Uri.EncodeExamples | src/app/services/s3.service.ts:105 | a space encodes as "%20" and a '/' as "%2F" |
| Endpoints.ObjectUrlSegments | src/app/services/s3.service.ts:139-140 | the object URL is origin + encoded key; the encoded key has as many '/' as the key, its segment i is the encoding of key segment i, and it decodes back to the key |
| Endpoints.ObjectUrlInjective | src/app/services/s3.service.ts:139-140 | two keys with the same object URL are the same key |
| Endpoints.EncodeKeyExample | src/app/services/s3.service.ts:138-139 | "My Mixes/Track One.mp3" is served as "My%20Mixes/Track%20One.mp3" |
| Endpoints.EncodeSpacedKey | src/app/services/s3.service.ts:139 | a two-segment key whose segments are unreserved words around one space is served with each space as "%20" and its '/' kept |
| JsString.Split | src/app/services/s3.service.ts:139 | splitting on '/' gives one more piece than there are '/' and no piece contains '/' |
| JsString.JoinSplit | src/app/services/s3.service.ts:139 | joining the pieces of a split gives the string back |
| JsString.SplitJoin | src/app/services/s3.service.ts:139 | splitting the join of '/'-free pieces gives the pieces back |
| Listing.TextOr | src/app/services/s3.service.ts:71-72 | `text \|\| fallback`: a present non-empty text is kept, an absent or empty one is replaced |
| Listing.ReadError | src/app/services/s3.service.ts:69-73 | an `Error` element's code and message are its own texts, or "Unknown" / "Unknown error" when absent or empty; neither is ever empty |
| Listing.ReceiveSuccess | src/app/services/s3.service.ts:58-74 | the body is scanned exactly when the fetch succeeded with a status in 200-299 and no `Error` element, and what is scanned is that body |
| Listing.ErrorElementDecides | src/app/services/s3.service.ts:69-74 | with an `Error` element the outcome does not depend on the rest of the body and is the message "{code}: {message}" with defaults |
| Listing.HttpErrorText | src/app/services/s3.service.ts:60-62 | a non-ok status fails with "HTTP {status}: {statusText}", whose number reads back as the status |
| Listing.FolderOf | src/app/services/s3.service.ts:80-86 | a `CommonPrefixes` element yields a folder exactly when its `Prefix` text is present and non-empty, and then name == prefix == that text |
| Listing.ExtractFolders | src/app/services/s3.service.ts:76-87 | no more folders than elements; each has name == prefix, non-empty, taken from the listing |
| Listing.FoldersInDocumentOrder | src/app/services/s3.service.ts:76-87 | folder k comes from the k-th kept element; the kept positions increase; an element is kept iff its `Prefix` is present and non-empty |
| Listing.FoldersEmpty | src/app/services/s3.service.ts:79-87 | there are no folders exactly when no `Prefix` text is present and non-empty |
| JsNumber.TrimStart | src/app/services/s3.service.ts:131 | `parseInt` skips exactly the leading white space and line terminators |
| JsNumber.ParseIntNeedsDigit | src/app/services/s3.service.ts:131 | a size text without any decimal digit is NaN |
| JsNumber.ParseIntEmptyAndZero | src/app/services/s3.service.ts:131 | `parseInt('')` is NaN while the fallback text '0' gives 0 |
| JsNumber.ParseIntHexPrefix | src/app/services/s3.service.ts:131 | without a radix, "0x10" reads as 16 |
| JsNumber.NatToString | src/app/services/s3.service.ts:61 | a status renders as decimal digits without a leading zero |
| JsNumber.ParseIntNatToString | src/app/services/s3.service.ts:61 | the rendered status parses back to itself |
| Listing.SizeWithoutDigitsIsZero | src/app/services/s3.service.ts:131 | a missing size, or one without decimal digits, is size 0 |
| Listing.SizeSpellingsAgree | jukebox.js:164 | the page's `parseInt(sizeText) \|\| 0` equals the service's `parseInt(sizeText \|\| '0') \|\| 0` on every input, absent included |
| Listing.FileOf | src/app/services/s3.service.ts:128-148 | an element yields a file exactly when its key is present, ends with ".mp3" and its parsed size is positive |
| Listing.ExtractFiles | src/app/services/s3.service.ts:125-149 | no more files than elements; every file has size > 0, an ".mp3" key, the key with the prefix removed once as name, and its object URL |
| Listing.FilesInDocumentOrder | src/app/services/s3.service.ts:125-149 | file k comes from the k-th kept element with the same key and size; kept positions increase; an element is kept iff it passes the filter |
| Listing.FilesEmpty | src/app/services/s3.service.ts:128-149 | there are no files exactly when no element passes the filter |
| Listing.EmptyEntrySkipped | src/app/services/s3.service.ts:133-134 | an entry of size 0 (such as the folder's own placeholder object) adds no file wherever it stands |
| Listing.SongInFolder | src/app/services/s3.service.ts:134-147 | an ".mp3" entry of positive size with key prefix + name is listed as that name with the full key, its object URL and its size |
| Listing.FileNameInsideFolder | src/app/services/s3.service.ts:135 | for a key that starts with the prefix the name is the rest of the key; an empty prefix leaves the key as name |
| JsString.ReplaceFirstSpec | src/app/services/s3.service.ts:135 | `replace` removes the first occurrence of the pattern and changes nothing when there is none |
| JsString.ReplaceFirstAt | src/app/services/s3.service.ts:135 | the removal happens at any occurrence that has no earlier one |
| JsString.ReplaceFirstLeading | src/app/services/s3.service.ts:135 | a key starting with the prefix loses exactly that leading copy |
| JsString.ReplaceFirstEmpty | src/app/services/s3.service.ts:135 | removing the empty prefix changes nothing |
| JsString.ReplaceFirstRebuilds | src/app/services/s3.service.ts:135 | the result is the key itself, or the key with one copy of the prefix removed from where it first occurs |
| JsString.ReplaceFirstRemovesInnerOccurrence | jukebox.js:169 | an occurrence after the start is removed too: "Live/Rock/Song.mp3" in folder "Rock/" becomes "Live/Song.mp3" |
| S3Service.MockFilesShape | src/app/services/s3.service.ts:155-158 | the fallback files are ".mp3" keys prefix + name of positive size, url "#", named by stripping the prefix; the fallback folders are named after their prefixes |
| S3Service.FetchFolders | src/app/services/s3.service.ts:54-100 | every folder returned, real or fallback, is named after its non-empty prefix |
| S3Service.FetchFiles | src/app/services/s3.service.ts:102-160 | every file returned, real or fallback, is an ".mp3" key of positive size named by stripping the prefix once, served from its object URL or "#" |
| S3Service.FetchFoldersOutcome | src/app/services/s3.service.ts:90-99 | a rejected fetch, a non-ok status or an `Error` element gives exactly the four mock folders; otherwise the listing's folders; the configuration is not consulted |
| S3Service.FetchFilesOutcome | src/app/services/s3.service.ts:152-158 | any failure gives exactly the two mock files Song-1.mp3 (5000000) and Song-2.mp3 (7000000) keyed prefix + name; otherwise the listing's files |
| S3Service.FoldersErrorElementGivesMocks | src/app/services/s3.service.ts:69-74 | an `Error` element in the root listing yields the four mock folders whatever prefixes the rest of the body holds |
| S3Service.FilesErrorElementGivesMocks | src/app/services/s3.service.ts:118-123 | an `Error` element in a folder listing yields the two mock files whatever contents the rest of the body holds |
| S3Service.OneRequestPerCall | src/app/services/s3.service.ts:57-58 | each call depends on the answer to its one URL only |
| S3Service.EmptyFoldersMeansEmptyListing | src/app/services/s3.service.ts:76-99 | an empty folder list only comes from a successful listing without a non-empty prefix |
| S3Service.ListedFilesHaveObjectUrls | src/app/services/s3.service.ts:140-146 | after a successful listing every file's URL is its object URL |
| Jukebox.FolderPlaceholder | jukebox.js:76-91 | "No folders found." appears exactly when there is no `CommonPrefixes` element; otherwise one item per non-empty prefix, so all-empty prefixes give an empty list |
| Jukebox.ListFolders | jukebox.js:54-96 | listing folders never changes the current folder or the file list |
| Jukebox.ListFoldersFailures | jukebox.js:92-95 | each failure shows "Error listing folders: " + its message and keeps the folder list; the folder list changes only after a successful listing |
| Jukebox.ScanContents | jukebox.js:157-183 | `mp3Found` holds iff some entry passed the filter; the lines are the service's files as items, or only "No .mp3 files found in this folder." |
| Jukebox.ScanBody | jukebox.js:161-178 | an entry the page's filter accepts appends exactly its (name, URL) item; any other entry changes nothing |
| Jukebox.ScriptFilterAgrees | jukebox.js:164-167 | the page's file filter accepts exactly the entries the service's does |
| Jukebox.ListFiles | jukebox.js:101-103 | listing a folder makes it the current folder and leaves the folder list alone |
| Jukebox.ListFilesErrorElement | jukebox.js:150-155 | an `Error` element shows "Error listing files: {code}: {message}" with the defaults, and the file list stays at "Loading..." |
| Jukebox.ListFilesHttpError | jukebox.js:141-143 | a non-ok status shows "Error listing files: HTTP {status}: {statusText}" and no file item |
| Jukebox.ListFilesMatchesService | jukebox.js:160-183 | after a successful listing the file items are the service's files, name for name and URL for URL, in order, or only the placeholder when there are none |
| Jukebox.MockTableShape | jukebox.js:107-111 | exactly the three preview folders have preview files, and every preview file name ends in ".mp3" |
| Jukebox.MockLinesAppend | jukebox.js:114-130 | ".mp3" names each append one item playing "#", in order, after what was there |
| Jukebox.MockLinesText | jukebox.js:115-118 | a name without ".mp3" replaces the whole list by one text line |
| Jukebox.MockModeFiles | jukebox.js:106-118 | in preview mode a preview folder lists its names in table order with url "#"; any other folder shows only "(No mock files for this folder)" |
| Jukebox.StartupUnconfigured | jukebox.js:19-49 | unconfigured, the page makes no request, shows the warning and the three preview folders, and lists the preview files of "My-Mixes/" |
| Jukebox.StartupConfigured | jukebox.js:25-30 | configured, the warning is hidden and only the root listing is requested |

## Left out

- `fetch`, `response.text()` and `DOMParser` are not modelled. The network is a
  parameter, and the parsed XML is the `ListingDoc` datatype as the code
  queries it: the first `Code`, `Message`, `Prefix`, `Key` and `Size` text
  of each element.
- Malformed XML is not modelled. The browser's parser keeps either nothing
  of the body (Firefox) or the elements parsed before the fault (Chromium,
  WebKit). The code then reads an empty listing, a truncated listing, or an
  error report when the `Error` start tag came before the fault. That
  behaviour belongs to the parser; an arbitrary `ListingDoc` covers every
  one of these outcomes.
- The DOM is reduced to the lines each list holds. Element construction,
  titles, the `download` attribute, styling of the banner, `console.error`
  and `alert` are I/O and not modelled.
- `playSong` and audio playback are not modelled: they are the browser's
  media element.
- `formatFileSize` is not modelled: it is floating-point `Math.log`,
  `Math.pow` and `Math.round`.
- `src/app/app.component.ts` is not part of this model. It subscribes to the
  service's Observables and assigns fields; the service model covers the
  logic.
- Overlapping listings are not modelled. Two fetches completing in either
  order are concurrency, and the code does not order them.
- The Observable/Promise wrapping (`from(...)`) is not modelled: each call
  is a function of the network's answer.
- Lone UTF-16 surrogates are not modelled. On them `encodeURIComponent`
  throws `URIError`. A Dafny `char` is a Unicode scalar value, so the
  model's strings are well-formed JavaScript strings read by code point,
  and that throw cannot arise.
- JsNumber.ParseInt: returns the exact value. JavaScript numbers lose
  precision above 2^53, and `parseInt` may round when there are more than 20
  significant digits. `-0` is folded into 0, since every caller applies
  `|| 0`.
- Jukebox.MockTable: covers the three keys of the table literal only. A
  folder named after an `Object.prototype` member (such as "constructor")
  would find a non-array value and throw, which is not modelled.
- S3Service.ConfigRoundTrip: holds for the configuration as a value only.
  `setConfig` keeps the caller's object by reference while `getConfig`
  returns a copy, so a caller that mutates the object after `setConfig`
  changes the bucket the service lists. Object identity and mutation are
  not modelled.
- The page's `BUCKET_NAME` and `REGION` constants ("tasty-mixes",
  "us-east-1" as shipped) are a `Config` parameter, since they are meant to
  be edited before deployment; the preview-mode lemmas cover a sentinel
  configuration, the others any configuration.

=== FILE: endpoints.dfy ===
/** The bucket configuration and every URL both front ends build from it:
    the root listing, the listing of one folder, and the public URL of an
    object, whose key is percent-encoded one '/'-separated segment at a time. */
module Endpoints {
  import opened Wrappers
  import opened JsString
  import Uri

  /** Bucket name and region, the two settings every URL depends on. */
  datatype Config = Config(bucketName: string, region: string)

  /** The values that mark the configuration as unset.  The constants the
      code ships with are a real bucket, not these. */
  const BucketSentinel: string := "your-bucket-name-here"
  const RegionSentinel: string := "your-region-here"

  /** The bucket is set up: neither setting equals its sentinel. */
  predicate IsConfigured(cfg: Config) {
    cfg.bucketName != BucketSentinel && cfg.region != RegionSentinel
  }

  /** Either sentinel on its own marks the configuration as unset. */
  lemma SentinelEitherSuffices(cfg: Config)
    ensures !IsConfigured(cfg) <==> cfg.bucketName == BucketSentinel || cfg.region == RegionSentinel
    ensures !IsConfigured(Config(BucketSentinel, cfg.region))
    ensures !IsConfigured(Config(cfg.bucketName, RegionSentinel))
  {
  }

  /** "https://{bucket}.s3.{region}.amazonaws.com/", the bucket's origin and root path. */
  function Origin(cfg: Config): string {
    "https://" + cfg.bucketName + ".s3." + cfg.region + ".amazonaws.com/"
  }

  /** The root listing, grouped into folders by the "/" delimiter. */
  function FoldersUrl(cfg: Config): string {
    Origin(cfg) + "?delimiter=/"
  }

  const PrefixQuery: string := "?prefix="

  /** The listing of every key under `prefix`, the whole prefix encoded as
      one component (so its '/' travels as "%2F"). */
  function FilesUrl(cfg: Config, prefix: string): string {
    Origin(cfg) + PrefixQuery + Uri.EncodeURIComponent(prefix)
  }

  /** `key.split('/').map(encodeURIComponent).join('/')`. */
  function EncodeKey(key: string): string {
    Join(EncodeSegments(Split(key, '/')), '/')
  }

  function EncodeSegments(segs: seq<string>): (r: seq<string>)
    ensures |r| == |segs|
    ensures forall i :: 0 <= i < |r| ==> r[i] == Uri.EncodeURIComponent(segs[i])
  {
    seq(|segs|, i requires 0 <= i < |segs| => Uri.EncodeURIComponent(segs[i]))
  }

  /** The object URL a listed key is played and downloaded from. */
  function ObjectUrl(cfg: Config, key: string): string {
    Origin(cfg) + EncodeKey(key)
  }

  // ---------------------------------------------------------------------
  // Decoding, the reference the encoders are checked against.

  /** Every segment decoded, or `None` if one of them does not decode. */
  function DecodeSegments(segs: seq<string>): (r: Option<seq<string>>)
    ensures r.Some? ==> |r.value| == |segs|
  {
    if segs == [] then Some([])
    else
      match (Uri.DecodeURIComponent(segs[0]), DecodeSegments(segs[1..]))
      case (Some(d), Some(rest)) => Some([d] + rest)
      case _ => None
  }

  /** The key an encoded object path stands for. */
  function DecodeKey(path: string): Option<string> {
    match DecodeSegments(Split(path, '/'))
    case None => None
    case Some(segs) => Some(Join(segs, '/'))
  }

  lemma {:induction false} DecodeEncodeSegments(segs: seq<string>)
    ensures DecodeSegments(EncodeSegments(segs)) == Some(segs)
  {
    if segs != [] {
      Uri.DecodeEncode(segs[0]);
      DecodeEncodeSegments(segs[1..]);
      assert EncodeSegments(segs)[1..] == EncodeSegments(segs[1..]);
      assert [segs[0]] + segs[1..] == segs;
    }
  }

  /** The encoded key is split by '/' into exactly the encoded segments of
      the key: no segment's encoding introduces or loses a separator. */
  lemma SplitEncodedKey(key: string)
    ensures Split(EncodeKey(key), '/') == EncodeSegments(Split(key, '/'))
  {
    var encoded := EncodeSegments(Split(key, '/'));
    forall k | 0 <= k < |encoded|
      ensures '/' !in encoded[k]
    {
      var e := encoded[k];
      assert forall i :: 0 <= i < |e| ==> Uri.IsUnreserved(e[i]) || e[i] == '%';
    }
    SplitJoin(encoded, '/');
  }

  /** The object path keeps the key's '/' separators, one for one; segment i
      of the path is `encodeURIComponent` of segment i of the key; and the
      path decodes back to the key. */
  lemma ObjectUrlSegments(cfg: Config, key: string)
    ensures ObjectUrl(cfg, key) == Origin(cfg) + EncodeKey(key)
    ensures Count(EncodeKey(key), '/') == Count(key, '/')
    ensures |Split(EncodeKey(key), '/')| == |Split(key, '/')|
    ensures forall i :: 0 <= i < |Split(key, '/')| ==>
      Split(EncodeKey(key), '/')[i] == Uri.EncodeURIComponent(Split(key, '/')[i])
    ensures DecodeKey(EncodeKey(key)) == Some(key)
  {
    SplitEncodedKey(key);
    DecodeEncodeSegments(Split(key, '/'));
    JoinSplit(key, '/');
  }

  /** Different keys never share an object URL. */
  lemma ObjectUrlInjective(cfg: Config, k1: string, k2: string)
    requires ObjectUrl(cfg, k1) == ObjectUrl(cfg, k2)
    ensures k1 == k2
  {
    var o := Origin(cfg);
    assert EncodeKey(k1) == ObjectUrl(cfg, k1)[|o|..];
    assert EncodeKey(k2) == ObjectUrl(cfg, k2)[|o|..];
    ObjectUrlSegments(cfg, k1);
    ObjectUrlSegments(cfg, k2);
  }

  /** The folder listing's query value decodes to the prefix and holds no
      raw '/': "Rock/" is sent as "Rock%2F". */
  lemma FilesUrlQuery(cfg: Config, prefix: string)
    ensures var q := FilesUrl(cfg, prefix)[|Origin(cfg) + PrefixQuery|..];
      && FilesUrl(cfg, prefix) == Origin(cfg) + PrefixQuery + q
      && '/' !in q
      && Uri.DecodeURIComponent(q) == Some(prefix)
  {
    var q := Uri.EncodeURIComponent(prefix);
    assert FilesUrl(cfg, prefix) == (Origin(cfg) + PrefixQuery) + q;
    assert forall i :: 0 <= i < |q| ==> Uri.IsUnreserved(q[i]) || q[i] == '%';
    Uri.DecodeEncode(prefix);
  }

  /** The root listing and a folder listing are different requests to the
      same origin: the root listing sends its '/' delimiter raw, while the
      folder listing's query holds no raw '/' at all, whatever the prefix. */
  lemma ListingUrlsDiffer(cfg: Config, prefix: string)
    ensures var n := |Origin(cfg)|;
      && FoldersUrl(cfg)[..n] == Origin(cfg) && FilesUrl(cfg, prefix)[..n] == Origin(cfg)
      && '/' in FoldersUrl(cfg)[n..]
      && '/' !in FilesUrl(cfg, prefix)[n..]
      && FoldersUrl(cfg) != FilesUrl(cfg, prefix)
  {
    var n := |Origin(cfg)|;
    var q := Uri.EncodeURIComponent(prefix);
    assert FoldersUrl(cfg)[n..] == "?delimiter=/";
    assert FoldersUrl(cfg)[n..][11] == '/';
    assert FilesUrl(cfg, prefix)[n..] == PrefixQuery + q;
    assert forall i :: 0 <= i < |q| ==> Uri.IsUnreserved(q[i]) || q[i] == '%';
    assert '/' !in PrefixQuery;
  }

  /** A key of two segments is encoded segment by segment around its '/'. */
  lemma EncodeKeyTwoSegments(key: string, a: string, b: string)
    requires key == a + ['/'] + b
    requires '/' !in a && '/' !in b
    ensures EncodeKey(key) == Uri.EncodeURIComponent(a) + ['/'] + Uri.EncodeURIComponent(b)
  {
    assert Join([a, b], '/') == a + ['/'] + Join([b], '/');
    SplitJoin([a, b], '/');
    assert Split(key, '/') == [a, b];
    var encoded := EncodeSegments([a, b]);
    assert encoded == [Uri.EncodeURIComponent(a), Uri.EncodeURIComponent(b)];
    assert Join(encoded, '/') == encoded[0] + ['/'] + Join(encoded[1..], '/');
  }

  /** "My Mixes/Track One.mp3" is served from "My%20Mixes/Track%20One.mp3":
      slashes kept, spaces escaped within each segment.  The key is written
      word by word. */
  lemma EncodeKeyExample(key: string)
    requires key == "My" + " " + "Mixes" + "/" + "Track" + " " + "One.mp3"
    ensures EncodeKey(key) == "My" + "%20" + "Mixes" + "/" + "Track" + "%20" + "One.mp3"
  {
    ExampleWordUnreserved("My");
    ExampleWordUnreserved("Mixes");
    ExampleWordUnreserved("Track");
    ExampleWordUnreserved("One.mp3");
    EncodeSpacedKey("My", "Mixes", "Track", "One.mp3");
  }

  /** A key of two segments, each two unreserved words around a space, is
      served with each space as "%20" and the '/' kept. */
  lemma EncodeSpacedKey(w1: string, w2: string, w3: string, w4: string)
    requires forall i :: 0 <= i < |w1| ==> Uri.IsUnreserved(w1[i])
    requires forall i :: 0 <= i < |w2| ==> Uri.IsUnreserved(w2[i])
    requires forall i :: 0 <= i < |w3| ==> Uri.IsUnreserved(w3[i])
    requires forall i :: 0 <= i < |w4| ==> Uri.IsUnreserved(w4[i])
    ensures EncodeKey(w1 + " " + w2 + "/" + w3 + " " + w4) == w1 + "%20" + w2 + "/" + w3 + "%20" + w4
  {
    var a, b := w1 + " " + w2, w3 + " " + w4;
    assert w1 + " " + w2 + "/" + w3 + " " + w4 == a + ['/'] + b;
    assert forall i :: 0 <= i < |a| ==> a[i] != '/';
    assert forall i :: 0 <= i < |b| ==> b[i] != '/';
    EncodeKeyTwoSegments(a + ['/'] + b, a, b);
    EncodeWords(a, w1, w2);
    EncodeWords(b, w3, w4);
  }

  lemma ExampleWordUnreserved(w: string)
    requires w == "My" || w == "Mixes" || w == "Track" || w == "One.mp3"
    ensures forall i :: 0 <= i < |w| ==> Uri.IsUnreserved(w[i])
    ensures '/' !in w
  {
  }

  /** Two unreserved words around a space encode to the words around "%20". */
  lemma EncodeWords(s: string, x: string, y: string)
    requires s == x + [' '] + y
    requires forall i :: 0 <= i < |x| ==> Uri.IsUnreserved(x[i])
    requires forall i :: 0 <= i < |y| ==> Uri.IsUnreserved(y[i])
    ensures Uri.EncodeURIComponent(s) == x + "%20" + y
  {
    calc {
      Uri.EncodeURIComponent(s);
    == { Uri.EncodeAppend(x + [' '], y); }
      Uri.EncodeURIComponent(x + [' ']) + Uri.EncodeURIComponent(y);
    == { Uri.EncodeAppend(x, [' ']); }
      Uri.EncodeURIComponent(x) + Uri.EncodeURIComponent([' ']) + Uri.EncodeURIComponent(y);
    == { Uri.EncodeUnreserved(x); Uri.EncodeUnreserved(y); EncodeSpace(); }
      x + "%20" + y;
    }
  }

  /** A lone space is sent as "%20". */
  lemma EncodeSpace()
    ensures Uri.EncodeURIComponent([' ']) == "%20"
  {
    Uri.EncodeExamples();
    assert [' '][1..] == [];
    assert Uri.EncodeURIComponent([' ']) == Uri.EncodeChar(' ') + Uri.EncodeURIComponent([]);
  }
}

=== FILE: jsnumber.dfy ===
/** The two number conversions the listing code performs: `parseInt` on the
    `Size` text of a listing entry (ECMA-262, section 19.2.5, with the radix
    left undefined) and the decimal rendering of an HTTP status code inside a
    template literal (Number::toString for a non-negative integer). */
module JsNumber {
  import opened Wrappers

  /** StrWhiteSpaceChar: the WhiteSpace and LineTerminator code points that
      `parseInt` skips before the number (TAB, VT, FF, ZWNBSP, the Zs space
      separators, LF, CR, LS and PS). */
  predicate IsStrWhiteSpace(c: char) {
    var n := c as int;
    || n == 0x09 || n == 0x0A || n == 0x0B || n == 0x0C || n == 0x0D
    || n == 0x20 || n == 0xA0 || n == 0x1680 || (0x2000 <= n <= 0x200A)
    || n == 0x2028 || n == 0x2029 || n == 0x202F || n == 0x205F
    || n == 0x3000 || n == 0xFEFF
  }

  predicate IsDecimalDigit(c: char) {
    '0' <= c <= '9'
  }

  /** The radices `parseInt` can end up with when none is given. */
  type Radix = r: nat | r == 10 || r == 16 witness 10

  /** The leading white space removed, nothing else touched. */
  function TrimStart(s: string): (r: string)
    ensures |r| <= |s| && r == s[|s| - |r|..]
    ensures forall i :: 0 <= i < |s| - |r| ==> IsStrWhiteSpace(s[i])
    ensures r == [] || !IsStrWhiteSpace(r[0])
  {
    if s != [] && IsStrWhiteSpace(s[0]) then TrimStart(s[1..]) else s
  }

  /** The value of `c` as a digit in `radix`, in either letter case. */
  function DigitValue(c: char, radix: Radix): (d: Option<nat>)
    ensures d.Some? ==> d.value < radix
    ensures radix == 10 ==> (d.Some? <==> IsDecimalDigit(c))
  {
    if '0' <= c <= '9' then Some(c as int - '0' as int)
    else if radix == 16 && 'a' <= c <= 'f' then Some(c as int - 'a' as int + 10)
    else if radix == 16 && 'A' <= c <= 'F' then Some(c as int - 'A' as int + 10)
    else None
  }

  /** The length of the longest prefix of `s` made of `radix` digits. */
  function DigitRun(s: string, radix: Radix): (n: nat)
    ensures n <= |s|
    ensures forall i :: 0 <= i < n ==> DigitValue(s[i], radix).Some?
    ensures n < |s| ==> DigitValue(s[n], radix).None?
  {
    if s == [] || DigitValue(s[0], radix).None? then 0
    else 1 + DigitRun(s[1..], radix)
  }

  predicate AllDigits(ds: string, radix: Radix) {
    forall i :: 0 <= i < |ds| ==> DigitValue(ds[i], radix).Some?
  }

  /** The number a run of digits denotes, most significant first. */
  function DigitsValue(ds: string, radix: Radix): nat
    requires AllDigits(ds, radix)
  {
    if ds == [] then 0
    else DigitsValue(ds[..|ds| - 1], radix) * radix + DigitValue(ds[|ds| - 1], radix).value
  }

  /** The text after one leading sign, if there is one. */
  function StripSign(t: string): (u: string)
    ensures u == t || (|t| > 0 && (t[0] == '-' || t[0] == '+') && u == t[1..])
  {
    if |t| > 0 && (t[0] == '-' || t[0] == '+') then t[1..] else t
  }

  /** `u` starts with the "0x"/"0X" prefix that switches `parseInt` to radix 16. */
  predicate HasHexPrefix(u: string) {
    |u| >= 2 && u[0] == '0' && (u[1] == 'x' || u[1] == 'X')
  }

  /** The magnitude `parseInt` reads from the unsigned text, `None` for NaN. */
  function ParseMagnitude(u: string): Option<nat>
  {
    var radix: Radix := if HasHexPrefix(u) then 16 else 10;
    var v := if HasHexPrefix(u) then u[2..] else u;
    var end := DigitRun(v, radix);
    if end == 0 then None else Some(DigitsValue(v[..end], radix))
  }

  /** `parseInt(s)`: skip white space, take one sign, switch to radix 16 after
      a "0x"/"0X" prefix, then read the longest run of digits.  `None` is NaN
      (no digit at all); -0 is folded into 0 since every caller applies `|| 0`. */
  function ParseInt(s: string): Option<int>
  {
    var t := TrimStart(s);
    match ParseMagnitude(StripSign(t))
    case None => None
    case Some(m) =>
      var magnitude: int := m;
      Some(if |t| > 0 && t[0] == '-' then -magnitude else magnitude)
  }

  /** A text without any decimal digit is NaN: there is no number to read,
      not even behind a "0x" prefix (whose "0" is itself a digit). */
  lemma ParseIntNeedsDigit(s: string)
    requires forall i :: 0 <= i < |s| ==> !IsDecimalDigit(s[i])
    ensures ParseInt(s) == None
  {
    var t := TrimStart(s);
    var u := StripSign(t);
    assert forall i :: 0 <= i < |u| ==> u[i] == s[|s| - |u| + i];
    assert !HasHexPrefix(u);
    assert |u| > 0 ==> !IsDecimalDigit(u[0]);
    assert DigitRun(u, 10) == 0;
  }

  /** The text "undefined" that `parseInt(undefined)` reads is NaN. */
  lemma ParseIntUndefined()
    ensures ParseInt("undefined") == None
  {
    ParseIntNeedsDigit("undefined");
  }

  /** A lone run of decimal digits that is not a hex prefix reads as its value. */
  lemma ParseIntDigits(s: string)
    requires |s| >= 1 && AllDigits(s, 10)
    requires |s| > 1 ==> s[1] != 'x' && s[1] != 'X'
    ensures ParseInt(s) == Some(DigitsValue(s, 10))
  {
    assert IsDecimalDigit(s[0]) && !IsStrWhiteSpace(s[0]);
    assert TrimStart(s) == s;
    assert StripSign(s) == s;
    assert !HasHexPrefix(s);
    assert DigitRun(s, 10) == |s|;
    assert s[..|s|] == s;
  }

  /** The empty text is NaN, while the fallback text "0" is the number 0. */
  lemma ParseIntEmptyAndZero()
    ensures ParseInt("") == None
    ensures ParseInt("0") == Some(0)
  {
    ParseIntNeedsDigit("");
    assert NatToString(0) == "0";
    ParseIntNatToString(0);
  }

  /** After a "0x" or "0X" prefix the digits are read in radix 16. */
  lemma ParseIntHex(s: string)
    requires HasHexPrefix(s) && |s| > 2 && AllDigits(s[2..], 16)
    ensures ParseInt(s) == Some(DigitsValue(s[2..], 16))
  {
    assert TrimStart(s) == s;
    assert StripSign(s) == s;
    var v := s[2..];
    assert DigitRun(v, 16) == |v|;
    assert v[..|v|] == v;
  }

  /** The "0x" quirk: without an explicit radix, "0x10" reads as sixteen. */
  lemma ParseIntHexPrefix(s: string)
    requires s == "0x10"
    ensures ParseInt(s) == Some(16)
  {
    HexSixteen(s[2..]);
    ParseIntHex(s);
  }

  lemma HexSixteen(v: string)
    requires v == "10"
    ensures AllDigits(v, 16) && DigitsValue(v, 16) == 16
  {
    assert v[..1] == "1" && v[..1][..0] == [];
    assert DigitsValue(v[..1], 16) == 1;
  }

  /** The decimal digit for 0 <= d < 10. */
  function DecimalChar(d: nat): (c: char)
    requires d < 10
    ensures IsDecimalDigit(c) && DigitValue(c, 10) == Some(d)
  {
    (d + '0' as int) as char
  }

  /** A non-negative integer in decimal, as a template literal renders it:
      digits only, no leading zero except for 0 itself. */
  function NatToString(n: nat): (r: string)
    ensures |r| >= 1
    ensures forall i :: 0 <= i < |r| ==> IsDecimalDigit(r[i])
    ensures |r| > 1 ==> r[0] != '0'
  {
    if n < 10 then [DecimalChar(n)]
    else NatToString(n / 10) + [DecimalChar(n % 10)]
  }

  /** The digits of `NatToString(n)` denote `n`. */
  lemma {:induction false} NatToStringValue(n: nat)
    ensures AllDigits(NatToString(n), 10) && DigitsValue(NatToString(n), 10) == n
  {
    var r := NatToString(n);
    if n >= 10 {
      NatToStringValue(n / 10);
      assert r[..|r| - 1] == NatToString(n / 10);
    } else {
      assert r[..0] == [];
    }
  }

  /** `parseInt` reads back what `NatToString` writes. */
  lemma ParseIntNatToString(n: nat)
    ensures ParseInt(NatToString(n)) == Some(n)
  {
    NatToStringValue(n);
    ParseIntDigits(NatToString(n));
  }
}

=== FILE: jsstring.dfy ===
/** The JavaScript string operations the listing code relies on:
    `endsWith`, `indexOf`, `replace` with a string pattern, `split` on a
    one-character separator and `join`.  A Dafny `char` is a Unicode scalar
    value, so a `string` here is a well-formed JavaScript string read code
    point by code point.  Every operation below yields the same strings on
    either view; `IndexOfFrom`'s position counts code points, where
    JavaScript's `indexOf` counts UTF-16 code units. */
module JsString {
  import opened Wrappers

  /** `s.endsWith(suffix)`. */
  predicate EndsWith(s: string, suffix: string) {
    |suffix| <= |s| && s[|s| - |suffix|..] == suffix
  }

  /** `pat` occurs in `s` starting at position `i`. */
  predicate OccursAt(s: string, pat: string, i: nat) {
    i + |pat| <= |s| && s[i..i + |pat|] == pat
  }

  /** `s.indexOf(pat, from)`: the first occurrence at or after `from`. */
  function IndexOfFrom(s: string, pat: string, from: nat): (r: Option<nat>)
    decreases |s| - from
    ensures r.Some? ==> from <= r.value && OccursAt(s, pat, r.value)
    ensures r.Some? ==> forall j :: from <= j < r.value ==> !OccursAt(s, pat, j)
    ensures r.None? ==> forall j :: from <= j ==> !OccursAt(s, pat, j)
  {
    if from + |pat| > |s| then None
    else if s[from..from + |pat|] == pat then Some(from)
    else IndexOfFrom(s, pat, from + 1)
  }

  /** `s.replace(pat, '')` with a string pattern: ECMAScript replaces only the
      FIRST occurrence, wherever it is, and leaves `s` alone when there is none. */
  function ReplaceFirst(s: string, pat: string): string
  {
    match IndexOfFrom(s, pat, 0)
    case None => s
    case Some(i) => s[..i] + s[i + |pat|..]
  }

  /** The removal happens at the first occurrence and nowhere else; with no
      occurrence the string is returned unchanged. */
  lemma ReplaceFirstSpec(s: string, pat: string)
    ensures (forall j: nat :: !OccursAt(s, pat, j)) ==> ReplaceFirst(s, pat) == s
    ensures forall i: nat :: OccursAt(s, pat, i) && (forall j: nat :: j < i ==> !OccursAt(s, pat, j)) ==>
      ReplaceFirst(s, pat) == s[..i] + s[i + |pat|..]
  {
    match IndexOfFrom(s, pat, 0)
    case None =>
    case Some(first) =>
      forall i: nat | OccursAt(s, pat, i) && (forall j: nat :: j < i ==> !OccursAt(s, pat, j))
        ensures ReplaceFirst(s, pat) == s[..i] + s[i + |pat|..]
      {
      }
  }

  /** When `s` starts with `pat`, the replacement strips exactly that leading copy. */
  lemma ReplaceFirstLeading(s: string, pat: string)
    requires |pat| <= |s| && s[..|pat|] == pat
    ensures ReplaceFirst(s, pat) == s[|pat|..]
  {
    assert OccursAt(s, pat, 0);
    assert s[..0] + s[|pat|..] == s[|pat|..];
  }

  /** A key made of `pat` and a name loses exactly `pat`. */
  lemma ReplaceFirstPrefixed(pat: string, name: string)
    ensures ReplaceFirst(pat + name, pat) == name
  {
    var s := pat + name;
    assert s[..|pat|] == pat && s[|pat|..] == name;
    ReplaceFirstLeading(s, pat);
  }

  /** Text in front does not change how a string ends. */
  lemma EndsWithAppend(front: string, s: string, suffix: string)
    requires EndsWith(s, suffix)
    ensures EndsWith(front + s, suffix)
  {
    var t := front + s;
    assert t[|t| - |suffix|..] == s[|s| - |suffix|..];
  }

  /** The empty pattern occurs at 0 and removing it changes nothing. */
  lemma ReplaceFirstEmpty(s: string)
    ensures ReplaceFirst(s, []) == s
  {
    assert OccursAt(s, [], 0);
    assert s[..0] + s[0..] == s;
  }

  /** The replacement removes exactly one copy of `pat` when there is one:
      putting it back at the first occurrence rebuilds `s`. */
  lemma ReplaceFirstRebuilds(s: string, pat: string)
    ensures var r := ReplaceFirst(s, pat);
      (r == s && forall j: nat :: !OccursAt(s, pat, j))
      || (exists i: nat :: i <= |r| && s == r[..i] + pat + r[i..] && |r| == |s| - |pat|
            && forall j: nat :: j < i ==> !OccursAt(s, pat, j))
  {
    match IndexOfFrom(s, pat, 0)
    case None =>
    case Some(i) =>
      var r := ReplaceFirst(s, pat);
      assert r == s[..i] + s[i + |pat|..];
      assert r[..i] == s[..i];
      assert r[i..] == s[i + |pat|..];
      assert s == s[..i] + s[i..i + |pat|] + s[i + |pat|..];
  }

  /** The replacement happens at a given occurrence when no earlier one exists. */
  lemma ReplaceFirstAt(s: string, pat: string, i: nat)
    requires OccursAt(s, pat, i)
    requires forall j: nat :: j < i ==> !OccursAt(s, pat, j)
    ensures ReplaceFirst(s, pat) == s[..i] + s[i + |pat|..]
  {
    var r := IndexOfFrom(s, pat, 0);
    assert r.Some?;
    assert r.value == i;
  }

  /** An occurrence of `pat` after the start is removed too, not only a
      leading one: with the folder "Rock/", the key "Live/Rock/Song.mp3"
      becomes "Live/Song.mp3". */
  lemma ReplaceFirstRemovesInnerOccurrence(front: string, pat: string, rest: string)
    requires pat != [] && pat[0] !in front
    ensures ReplaceFirst(front + pat + rest, pat) == front + rest
  {
    var s := front + pat + rest;
    var i := |front|;
    assert s[i..i + |pat|] == pat;
    forall j: nat | j < i
      ensures !OccursAt(s, pat, j)
    {
      assert s[j] == front[j];
    }
    ReplaceFirstAt(s, pat, i);
    assert s[..i] == front && s[i + |pat|..] == rest;
  }

  /** The number of times `c` occurs in `s`. */
  function Count(s: string, c: char): nat
  {
    if s == [] then 0
    else (if s[0] == c then 1 else 0) + Count(s[1..], c)
  }

  /** `s.split(sep)` for a one-character separator: the pieces between
      separators, including empty ones at either end. */
  function Split(s: string, sep: char): (segs: seq<string>)
    ensures |segs| == Count(s, sep) + 1
    ensures forall k :: 0 <= k < |segs| ==> sep !in segs[k]
  {
    if s == [] then [[]]
    else
      var rest := Split(s[1..], sep);
      if s[0] == sep then [[]] + rest
      else [[s[0]] + rest[0]] + rest[1..]
  }

  /** `segs.join(sep)`. */
  function Join(segs: seq<string>, sep: char): string
  {
    if segs == [] then []
    else if |segs| == 1 then segs[0]
    else segs[0] + [sep] + Join(segs[1..], sep)
  }

  /** Joining the pieces of a split gives back the string. */
  lemma {:induction false} JoinSplit(s: string, sep: char)
    ensures Join(Split(s, sep), sep) == s
  {
    if s != [] {
      var rest := Split(s[1..], sep);
      JoinSplit(s[1..], sep);
      if s[0] == sep {
        assert Split(s, sep)[1..] == rest;
        assert Join(Split(s, sep), sep) == [] + [sep] + Join(rest, sep);
      } else {
        var segs := Split(s, sep);
        assert segs[1..] == rest[1..];
        if |rest| == 1 {
          assert Join(segs, sep) == [s[0]] + rest[0];
        } else {
          assert Join(segs, sep) == [s[0]] + rest[0] + [sep] + Join(rest[1..], sep);
          assert Join(rest, sep) == rest[0] + [sep] + Join(rest[1..], sep);
        }
      }
    }
  }

  /** Splitting a string that starts with a separator-free piece `x`
      glues `x` onto the first piece of the rest. */
  lemma {:induction false} SplitFreePrefix(x: string, t: string, sep: char)
    requires sep !in x
    ensures Split(x + t, sep) == [x + Split(t, sep)[0]] + Split(t, sep)[1..]
  {
    if x == [] {
      assert x + t == t;
      var segs := Split(t, sep);
      assert segs == [segs[0]] + segs[1..];
      assert x + segs[0] == segs[0];
    } else {
      assert (x + t)[1..] == x[1..] + t;
      SplitFreePrefix(x[1..], t, sep);
      assert [x[0]] + (x[1..] + Split(t, sep)[0]) == x + Split(t, sep)[0];
    }
  }

  /** Splitting the join of separator-free pieces gives the pieces back. */
  lemma {:induction false} SplitJoin(segs: seq<string>, sep: char)
    requires |segs| >= 1
    requires forall k :: 0 <= k < |segs| ==> sep !in segs[k]
    ensures Split(Join(segs, sep), sep) == segs
  {
    if |segs| == 1 {
      SplitFreePrefix(segs[0], [], sep);
      assert segs[0] + [] == segs[0];
    } else {
      var tail := Join(segs[1..], sep);
      SplitJoin(segs[1..], sep);
      assert ([sep] + tail)[1..] == tail;
      assert Split([sep] + tail, sep) == [[]] + segs[1..];
      assert Join(segs, sep) == segs[0] + ([sep] + tail);
      SplitFreePrefix(segs[0], [sep] + tail, sep);
      assert segs[0] + [] == segs[0];
    }
  }
}

=== FILE: jukebox.dfy ===
/** The vanilla script's page: a folder list, the name of the current
    folder, a file list and a banner that shows either the configuration
    warning or an error.  Listing failures become an error banner instead of
    mock data; empty results get placeholder lines; an unconfigured page
    never touches the network and shows fixed preview data instead.  The DOM
    is abstracted to the lines each list holds. */
module Jukebox {
  import opened Wrappers
  import opened JsString
  import opened Endpoints
  import opened Listing
  import Seqs
  import S3Service

  /** The warning box: hidden, showing the configuration warning, or showing
      an error message. */
  datatype Banner = Hidden | ConfigWarning | ErrorBanner(message: string)

  /** One `li` of a list: plain text, a clickable folder, or a file with its
      play/download URL. */
  datatype Line = Text(text: string) | FolderItem(prefix: string) | FileItem(name: string, url: string)

  datatype View = View(folderLines: seq<Line>, currentFolder: string, fileLines: seq<Line>, banner: Banner)

  const NoFolders: string := "No folders found."
  const NoAudioFiles: string := "No .mp3 files found in this folder."
  const NoMockFiles: string := "(No mock files for this folder)"
  const Loading: string := "Loading..."
  const PreviewUrl: string := "#"

  // ---------------------------------------------------------------------
  // Folders

  function FolderItems(folders: seq<Folder>): (r: seq<Line>)
    ensures |r| == |folders|
    ensures forall k :: 0 <= k < |r| ==> r[k] == FolderItem(folders[k].prefix)
  {
    seq(|folders|, k requires 0 <= k < |folders| => FolderItem(folders[k].prefix))
  }

  /** The folder list after a successful root listing. */
  function FolderLines(prefixes: seq<Option<string>>): seq<Line> {
    if |prefixes| == 0 then [Text(NoFolders)]
    else FolderItems(ExtractFolders(prefixes))
  }

  /** The placeholder is shown exactly when the listing has no
      `CommonPrefixes` element at all.  Otherwise the list holds one item per
      non-empty prefix, in order, so a listing whose prefixes are all empty
      shows an empty list and no placeholder. */
  lemma FolderPlaceholder(prefixes: seq<Option<string>>)
    ensures FolderLines(prefixes) == [Text(NoFolders)] <==> |prefixes| == 0
    ensures |prefixes| > 0 ==> FolderLines(prefixes) == FolderItems(ExtractFolders(prefixes))
    ensures |prefixes| > 0 ==>
      (FolderLines(prefixes) == [] <==>
        forall i :: 0 <= i < |prefixes| ==> prefixes[i].None? || prefixes[i].value == [])
  {
    if |prefixes| > 0 {
      FoldersEmpty(prefixes);
      var lines := FolderLines(prefixes);
      assert |lines| > 0 ==> lines[0].FolderItem?;
    }
  }

  /** `listFolders`: the folder list is replaced on success and left as it
      was on failure, when the banner reports "Error listing folders: ...". */
  function ListFolders(cfg: Config, v: View, respond: string -> Response): (r: View)
    ensures r.currentFolder == v.currentFolder && r.fileLines == v.fileLines
  {
    match Receive(respond(FoldersUrl(cfg)))
    case Failure(msg) => v.(banner := ErrorBanner("Error listing folders: " + msg))
    case Success(doc) => v.(folderLines := FolderLines(doc.commonPrefixes))
  }

  /** The root listing's failures, each with the message the banner shows;
      the folder list is kept in every failure case. */
  lemma ListFoldersFailures(cfg: Config, v: View, respond: string -> Response)
    ensures var resp := respond(FoldersUrl(cfg));
      var r := ListFolders(cfg, v, respond);
      && (resp.NetworkFailure? ==>
            r == v.(banner := ErrorBanner("Error listing folders: " + resp.reason)))
      && (resp.HttpResponse? && !IsOk(resp.status) ==>
            r == v.(banner := ErrorBanner("Error listing folders: "
                     + ("HTTP " + JsNumber.NatToString(resp.status) + ": " + resp.statusText))))
      && (resp.HttpResponse? && IsOk(resp.status) && resp.doc.error.Some? ==>
            r == v.(banner := ErrorBanner("Error listing folders: "
                     + (TextOr(resp.doc.error.value.code, "Unknown") + ": "
                        + TextOr(resp.doc.error.value.message, "Unknown error")))))
      && (r.folderLines != v.folderLines ==>
            resp.HttpResponse? && IsOk(resp.status) && resp.doc.error.None?)
  {
    var resp := respond(FoldersUrl(cfg));
    ReceiveSuccess(resp);
  }

  // ---------------------------------------------------------------------
  // Files of a real listing

  function FileItems(files: seq<FileEntry>): (r: seq<Line>)
    ensures |r| == |files|
    ensures forall k :: 0 <= k < |r| ==> r[k] == FileItem(files[k].name, files[k].url)
  {
    seq(|files|, k requires 0 <= k < |files| => FileItem(files[k].name, files[k].url))
  }

  /** The file list after a successful folder listing. */
  function FileLines(cfg: Config, prefix: string, contents: seq<ContentsElement>): seq<Line> {
    var files := ExtractFiles(cfg, prefix, contents);
    if files == [] then [Text(NoAudioFiles)] else FileItems(files)
  }

  /** `parseInt(sizeText) || 0 > 0` and the key test, as the script writes
      them: the script's own spelling of the file filter. */
  predicate ScriptIncluded(c: ContentsElement) {
    c.key.Some? && c.key.value != [] && EndsWith(c.key.value, AudioSuffix) && ScriptSizeOf(c.size) > 0
  }

  /** The script's `forEach` over the `Contents` elements: each included
      entry sets `mp3Found` and appends its item; afterwards the placeholder
      replaces an empty list.  The script's filter is the service's filter,
      `mp3Found` holds exactly when some entry passed it, and the lines are
      those of the service's files, or the placeholder alone when there are
      none. */
  method ScanContents(cfg: Config, prefix: string, contents: seq<ContentsElement>)
    returns (lines: seq<Line>, mp3Found: bool)
    ensures mp3Found <==> SomeIncluded(contents)
    ensures lines == FileLines(cfg, prefix, contents)
    ensures !mp3Found <==> lines == [Text(NoAudioFiles)]
  {
    lines := [];
    mp3Found := false;
    var i := 0;
    while i < |contents|
      invariant 0 <= i <= |contents|
      invariant lines == FileItems(ExtractFiles(cfg, prefix, contents[..i]))
      invariant mp3Found <==> ExtractFiles(cfg, prefix, contents[..i]) != []
    {
      ScanBody(cfg, prefix, contents, i);
      if ScriptIncluded(contents[i]) {
        var key := contents[i].key.value;
        mp3Found := true;
        lines := lines + [FileItem(ReplaceFirst(key, prefix), ObjectUrl(cfg, key))];
      }
      i := i + 1;
    }
    ScanDone(cfg, prefix, contents, lines, mp3Found);
    if !mp3Found {
      lines := [Text(NoAudioFiles)];
    }
  }

  /** After the last element the files so far are all the files: the flag
      says whether an element passed the filter, and the placeholder stands
      in for an empty list and only for it. */
  lemma ScanDone(cfg: Config, prefix: string, contents: seq<ContentsElement>, items: seq<Line>, found: bool)
    requires items == FileItems(ExtractFiles(cfg, prefix, contents[..|contents|]))
    requires found <==> ExtractFiles(cfg, prefix, contents[..|contents|]) != []
    ensures found <==> SomeIncluded(contents)
    ensures var lines := if found then items else [Text(NoAudioFiles)];
      && lines == FileLines(cfg, prefix, contents)
      && (!found <==> lines == [Text(NoAudioFiles)])
  {
    assert contents[..|contents|] == contents;
    FilesEmpty(cfg, prefix, contents);
    if found {
      assert items[0].FileItem?;
    }
  }

  /** One more `Contents` element adds its file, if it has one, at the end. */
  lemma ScanStep(cfg: Config, prefix: string, contents: seq<ContentsElement>, i: nat)
    requires i < |contents|
    ensures ExtractFiles(cfg, prefix, contents[..i + 1])
      == ExtractFiles(cfg, prefix, contents[..i]) + Seqs.Keep(FileOf(cfg, prefix, contents[i]))
  {
    var f := FileFilter(cfg, prefix);
    Seqs.FilterMapSnoc(f, contents, i);
    assert f(contents[i]) == FileOf(cfg, prefix, contents[i]);
  }

  /** The script's filter accepts exactly the entries the service's does. */
  lemma ScriptFilterAgrees(c: ContentsElement)
    ensures ScriptIncluded(c) <==> Included(c)
  {
    SizeSpellingsAgree(c.size);
  }

  /** One pass of the script's loop body, in the script's own terms: an
      entry its filter accepts appends exactly its item to the lines of the
      files so far; any other entry changes nothing. */
  lemma ScanBody(cfg: Config, prefix: string, contents: seq<ContentsElement>, i: nat)
    requires i < |contents|
    ensures var before := ExtractFiles(cfg, prefix, contents[..i]);
      var after := ExtractFiles(cfg, prefix, contents[..i + 1]);
      var c := contents[i];
      && (ScriptIncluded(c) ==>
            && after != []
            && FileItems(after) == FileItems(before) + [FileItem(ReplaceFirst(c.key.value, prefix), ObjectUrl(cfg, c.key.value))])
      && (!ScriptIncluded(c) ==> after == before)
  {
    ScanStep(cfg, prefix, contents, i);
    ScriptFilterAgrees(contents[i]);
    if Included(contents[i]) {
      ScanAccepted(cfg, prefix, ExtractFiles(cfg, prefix, contents[..i]), contents[i]);
    } else {
      var before := ExtractFiles(cfg, prefix, contents[..i]);
      assert FileOf(cfg, prefix, contents[i]) == None;
      assert before + Seqs.Keep(None) == before;
    }
  }

  lemma ScanAccepted(cfg: Config, prefix: string, before: seq<FileEntry>, c: ContentsElement)
    requires Included(c)
    ensures var after := before + Seqs.Keep(FileOf(cfg, prefix, c));
      after != [] &&
      FileItems(after) == FileItems(before) + [FileItem(ReplaceFirst(c.key.value, prefix), ObjectUrl(cfg, c.key.value))]
  {
    var key := c.key.value;
    var entry := FileEntry(ReplaceFirst(key, prefix), key, ObjectUrl(cfg, key), SizeOf(c.size));
    assert FileOf(cfg, prefix, c) == Some(entry);
    assert Seqs.Keep(Some(entry)) == [entry];
    FileItemsAppend(before, [entry]);
    assert FileItems([entry]) == [FileItem(entry.name, entry.url)];
  }

  lemma FileItemsAppend(a: seq<FileEntry>, b: seq<FileEntry>)
    ensures FileItems(a + b) == FileItems(a) + FileItems(b)
  {
    assert |FileItems(a + b)| == |FileItems(a) + FileItems(b)|;
    forall k | 0 <= k < |a + b|
      ensures FileItems(a + b)[k] == (FileItems(a) + FileItems(b))[k]
    {
      if k >= |a| {
        assert (a + b)[k] == b[k - |a|];
      }
    }
  }

  // ---------------------------------------------------------------------
  // Preview (mock) data

  /** The preview folders, in display order. */
  const MockFolderNames: seq<string> := ["My-Mixes/", "Podcast-Episodes/", "Audiobook-Chapters/"]

  /** `mockFiles[folderPrefix]`: the preview file names of a preview folder. */
  function MockTable(folder: string): Option<seq<string>> {
    if folder == "My-Mixes/" then Some(["Awesome-Track-1.mp3", "Chill-Vibes.mp3", "Workout-Mix.mp3"])
    else if folder == "Podcast-Episodes/" then Some(["Episode-101.mp3", "Tech-Talk-Weekly.mp3"])
    else if folder == "Audiobook-Chapters/" then
      Some(["Chapter-01.mp3", "Chapter-02-Part1.mp3", "Chapter-02-Part2.mp3"])
    else None
  }

  /** `mockFiles[folderPrefix] || ['(No mock files for this folder)']`. */
  function MockNames(folder: string): seq<string> {
    MockTable(folder).GetOr([NoMockFiles])
  }

  /** The preview `forEach`: an ".mp3" name appends a file item playing "#";
      any other name replaces the whole list by a single text line. */
  function MockLines(lines: seq<Line>, names: seq<string>): seq<Line>
    decreases |names|
  {
    if names == [] then lines
    else
      var n := names[0];
      var next := if EndsWith(n, AudioSuffix) then lines + [FileItem(n, PreviewUrl)] else [Text(n)];
      MockLines(next, names[1..])
  }

  /** Names that all end in ".mp3" each append one preview item, in order. */
  lemma {:induction false} MockLinesAppend(lines: seq<Line>, names: seq<string>)
    requires forall k :: 0 <= k < |names| ==> EndsWith(names[k], AudioSuffix)
    decreases |names|
    ensures var r := MockLines(lines, names);
      && |r| == |lines| + |names|
      && r[..|lines|] == lines
      && forall k :: 0 <= k < |names| ==> r[|lines| + k] == FileItem(names[k], PreviewUrl)
  {
    if names != [] {
      var next := lines + [FileItem(names[0], PreviewUrl)];
      MockLinesAppend(next, names[1..]);
      var r := MockLines(next, names[1..]);
      assert r[..|lines|] == next[..|lines|];
      forall k | 0 <= k < |names|
        ensures r[|lines| + k] == FileItem(names[k], PreviewUrl)
      {
        if k > 0 {
          assert r[|next| + (k - 1)] == FileItem(names[1..][k - 1], PreviewUrl);
        }
      }
    }
  }

  /** A name without ".mp3" wipes what came before it. */
  lemma MockLinesText(lines: seq<Line>, n: string)
    requires !EndsWith(n, AudioSuffix)
    ensures MockLines(lines, [n]) == [Text(n)]
  {
    assert [n][1..] == [];
  }

  /** Every preview file name ends in ".mp3", and exactly the three preview
      folders have an entry. */
  lemma MockTableShape(folder: string)
    ensures MockTable(folder).Some? <==> folder in MockFolderNames
    ensures MockTable(folder).Some? ==>
      |MockTable(folder).value| > 0 &&
      forall k :: 0 <= k < |MockTable(folder).value| ==> EndsWith(MockTable(folder).value[k], AudioSuffix)
  {
  }

  /** The file list in preview mode: a preview folder lists its file names in
      table order, each playing "#"; any other folder shows the single line
      "(No mock files for this folder)". */
  lemma MockModeFiles(folder: string)
    ensures var r := MockLines([], MockNames(folder));
      match MockTable(folder)
      case Some(names) => |r| == |names| && forall k :: 0 <= k < |names| ==> r[k] == FileItem(names[k], PreviewUrl)
      case None => r == [Text(NoMockFiles)]
  {
    MockTableShape(folder);
    match MockTable(folder)
    case Some(names) =>
      MockLinesAppend([], names);
      var r := MockLines([], names);
      forall k | 0 <= k < |names|
        ensures r[k] == FileItem(names[k], PreviewUrl)
      {
        assert r[0 + k] == FileItem(names[k], PreviewUrl);
      }
    case None =>
      assert !EndsWith(NoMockFiles, AudioSuffix);
      MockLinesText([], NoMockFiles);
  }

  // ---------------------------------------------------------------------
  // Listing a folder

  /** `listFiles`: show the folder's name and "Loading...", then either the
      preview lines (unconfigured), the listed files or their placeholder
      (success), or an error banner over the still-loading list (failure). */
  function ListFiles(cfg: Config, v: View, folder: string, respond: string -> Response): (r: View)
    ensures r.currentFolder == folder && r.folderLines == v.folderLines
  {
    var loading := v.(currentFolder := folder, fileLines := [Text(Loading)]);
    if !IsConfigured(cfg) then loading.(fileLines := MockLines([], MockNames(folder)))
    else
      match Receive(respond(FilesUrl(cfg, folder)))
      case Failure(msg) => loading.(banner := ErrorBanner("Error listing files: " + msg))
      case Success(doc) => loading.(fileLines := FileLines(cfg, folder, doc.contents))
  }

  /** An `Error` element in an ok response is reported as
      "Error listing files: {Code}: {Message}" with "Unknown" and "Unknown
      error" for a missing or empty text, and no file item is shown. */
  lemma ListFilesErrorElement(cfg: Config, v: View, folder: string, respond: string -> Response)
    requires IsConfigured(cfg)
    requires var resp := respond(FilesUrl(cfg, folder));
      resp.HttpResponse? && IsOk(resp.status) && resp.doc.error.Some?
    ensures var e := respond(FilesUrl(cfg, folder)).doc.error.value;
      var r := ListFiles(cfg, v, folder, respond);
      && r.banner == ErrorBanner("Error listing files: " + (TextOr(e.code, "Unknown") + ": " + TextOr(e.message, "Unknown error")))
      && r.fileLines == [Text(Loading)]
  {
  }

  /** A non-ok status is reported as "Error listing files: HTTP {status}:
      {statusText}", and no file item is shown. */
  lemma ListFilesHttpError(cfg: Config, v: View, folder: string, respond: string -> Response)
    requires IsConfigured(cfg)
    requires var resp := respond(FilesUrl(cfg, folder)); resp.HttpResponse? && !IsOk(resp.status)
    ensures var resp := respond(FilesUrl(cfg, folder));
      var r := ListFiles(cfg, v, folder, respond);
      && r.banner == ErrorBanner("Error listing files: " + ("HTTP " + JsNumber.NatToString(resp.status) + ": " + resp.statusText))
      && forall k :: 0 <= k < |r.fileLines| ==> !r.fileLines[k].FileItem?
  {
  }

  /** On a successful listing the file list holds the service's files, item
      for item (same name, same URL, same order), or only the placeholder
      "No .mp3 files found in this folder." when no entry passed the filter. */
  lemma ListFilesMatchesService(cfg: Config, v: View, folder: string, respond: string -> Response)
    requires IsConfigured(cfg)
    requires Receive(respond(FilesUrl(cfg, folder))).Success?
    ensures var files := S3Service.FetchFiles(S3Service.Service(cfg), folder, respond);
      var lines := ListFiles(cfg, v, folder, respond).fileLines;
      && (files == [] <==> lines == [Text(NoAudioFiles)])
      && (files != [] ==> (|lines| == |files| &&
            forall k :: 0 <= k < |files| ==> lines[k] == FileItem(files[k].name, files[k].url)))
  {
    var resp := respond(FilesUrl(cfg, folder));
    S3Service.FetchFilesOutcome(S3Service.Service(cfg), folder, respond);
    var files := ExtractFiles(cfg, folder, resp.doc.contents);
    assert S3Service.FetchFiles(S3Service.Service(cfg), folder, respond) == files;
    var lines := ListFiles(cfg, v, folder, respond).fileLines;
    assert lines == FileLines(cfg, folder, resp.doc.contents);
    assert files != [] ==> lines[0].FileItem?;
  }

  // ---------------------------------------------------------------------
  // Start-up

  /** The page as the script leaves it once loaded: unconfigured, the
      warning, the preview folders and the first preview folder's files;
      configured, no warning and the root listing. */
  function Startup(cfg: Config, page: View, respond: string -> Response): View {
    if !IsConfigured(cfg) then
      var shown := page.(banner := ConfigWarning, folderLines := FolderItemsOf(MockFolderNames));
      ListFiles(cfg, shown, MockFolderNames[0], respond)
    else ListFolders(cfg, page.(banner := Hidden), respond)
  }

  function FolderItemsOf(names: seq<string>): (r: seq<Line>)
    ensures |r| == |names|
    ensures forall k :: 0 <= k < |r| ==> r[k] == FolderItem(names[k])
  {
    seq(|names|, k requires 0 <= k < |names| => FolderItem(names[k]))
  }

  /** Unconfigured, the page never asks the network (any two networks give
      the same page) and shows the warning, the three preview folders and the
      preview files of "My-Mixes/". */
  lemma StartupUnconfigured(cfg: Config, page: View, r1: string -> Response, r2: string -> Response)
    requires !IsConfigured(cfg)
    ensures Startup(cfg, page, r1) == Startup(cfg, page, r2)
    ensures var v := Startup(cfg, page, r1);
      && v.banner == ConfigWarning
      && v.folderLines == [FolderItem("My-Mixes/"), FolderItem("Podcast-Episodes/"), FolderItem("Audiobook-Chapters/")]
      && v.currentFolder == "My-Mixes/"
      && v.fileLines == [FileItem("Awesome-Track-1.mp3", PreviewUrl), FileItem("Chill-Vibes.mp3", PreviewUrl),
                         FileItem("Workout-Mix.mp3", PreviewUrl)]
  {
    MockModeFiles(MockFolderNames[0]);
  }

  /** Configured, the page hides the warning and shows the root listing,
      asking for the root listing only. */
  lemma StartupConfigured(cfg: Config, page: View, r1: string -> Response, r2: string -> Response)
    requires IsConfigured(cfg)
    ensures Startup(cfg, page, r1).banner != ConfigWarning
    ensures r1(FoldersUrl(cfg)) == r2(FoldersUrl(cfg)) ==> Startup(cfg, page, r1) == Startup(cfg, page, r2)
  {
  }
}

=== FILE: listing.dfy ===
/** The interpretation of an S3 ListObjects response that the Angular
    service and the vanilla script share, up to the spelling of the size
    parse (`SizeSpellingsAgree`) and the script's "No folders found."
    branch.  `fetch` and `DOMParser` are abstracted: a `Response` is what
    the network answered, and a `ListingDoc` is the parsed XML as the code
    queries it, with every
    `getElementsByTagName(...)[0]?.textContent` read as an optional text. */
module Listing {
  import opened Wrappers
  import opened JsString
  import JsNumber
  import opened Endpoints
  import Seqs

  /** The first `Error` element: its first `Code` and `Message` texts. */
  datatype ErrorElement = ErrorElement(code: Option<string>, message: Option<string>)

  /** One `Contents` element: its first `Key` and `Size` texts. */
  datatype ContentsElement = ContentsElement(key: Option<string>, size: Option<string>)

  /** The parsed listing, in document order: the first `Error` element if any,
      the first `Prefix` text of every `CommonPrefixes` element, and every
      `Contents` element. */
  datatype ListingDoc = ListingDoc(
    error: Option<ErrorElement>,
    commonPrefixes: seq<Option<string>>,
    contents: seq<ContentsElement>)

  /** What `fetch` produced: a rejection (network failure, with the message of
      the error it raised) or an HTTP response with its parsed body. */
  datatype Response =
    | NetworkFailure(reason: string)
    | HttpResponse(status: nat, statusText: string, doc: ListingDoc)

  /** `response.ok`: a status in the range 200 to 299. */
  predicate IsOk(status: nat) {
    200 <= status <= 299
  }

  /** `text || fallback`: an absent or empty text is replaced. */
  function TextOr(text: Option<string>, fallback: string): (r: string)
    ensures text.Some? && text.value != [] ==> r == text.value
    ensures text.None? || text.value == [] ==> r == fallback
  {
    match text
    case Some(t) => if t != [] then t else fallback
    case None => fallback
  }

  /** The provider's error report, as the code formats it. */
  datatype ListingError = ListingError(code: string, message: string)

  /** `Code` and `Message` read with "Unknown" and "Unknown error" standing in
      for an absent or empty text: neither field of the result is ever empty,
      and each is either the element's own text or its default. */
  function ReadError(e: ErrorElement): (r: ListingError)
    ensures r.code != [] && r.message != []
    ensures e.code == Some(r.code) || (r.code == "Unknown" && (e.code.None? || e.code == Some([])))
    ensures e.message == Some(r.message) || (r.message == "Unknown error" && (e.message.None? || e.message == Some([])))
  {
    ListingError(TextOr(e.code, "Unknown"), TextOr(e.message, "Unknown error"))
  }

  /** The message of the Error the code throws: "{code}: {message}". */
  function ErrorText(err: ListingError): string {
    err.code + ": " + err.message
  }

  /** The try block up to the first element scan: the message of whatever it
      throws, or the document to scan.  A non-ok status throws
      "HTTP {status}: {statusText}"; an `Error` element throws its code and
      message, so no `CommonPrefixes` or `Contents` element is ever looked at. */
  function Receive(resp: Response): Result<ListingDoc, string>
  {
    match resp
    case NetworkFailure(reason) => Failure(reason)
    case HttpResponse(status, statusText, doc) =>
      if !IsOk(status) then Failure("HTTP " + JsNumber.NatToString(status) + ": " + statusText)
      else if doc.error.Some? then Failure(ErrorText(ReadError(doc.error.value)))
      else Success(doc)
  }

  /** Only an ok response without an `Error` element is scanned, and what is
      scanned is exactly its body. */
  lemma ReceiveSuccess(resp: Response)
    ensures Receive(resp).Success? <==>
      resp.HttpResponse? && IsOk(resp.status) && resp.doc.error.None?
    ensures Receive(resp).Success? ==> Receive(resp).value == resp.doc
  {
  }

  /** An `Error` element decides the outcome alone: two ok responses with the
      same `Error` element are handled alike whatever else their bodies hold,
      and the message is "{Code}: {Message}" with the defaults filled in. */
  lemma ErrorElementDecides(status: nat, text: string, d1: ListingDoc, d2: ListingDoc)
    requires IsOk(status) && d1.error.Some? && d1.error == d2.error
    ensures Receive(HttpResponse(status, text, d1)) == Receive(HttpResponse(status, text, d2))
    ensures Receive(HttpResponse(status, text, d1)) == Failure(
      TextOr(d1.error.value.code, "Unknown") + ": " + TextOr(d1.error.value.message, "Unknown error"))
  {
  }

  /** A non-ok status is reported as "HTTP {status}: {statusText}", whose
      number part reads back as the status. */
  lemma HttpErrorText(status: nat, text: string, doc: ListingDoc)
    requires !IsOk(status)
    ensures Receive(HttpResponse(status, text, doc)) == Failure("HTTP " + JsNumber.NatToString(status) + ": " + text)
    ensures JsNumber.ParseInt(JsNumber.NatToString(status)) == Some(status as int)
  {
    JsNumber.ParseIntNatToString(status);
  }

  // ---------------------------------------------------------------------
  // Folders

  /** A folder is a common prefix; it is displayed as the prefix itself. */
  datatype Folder = Folder(name: string, prefix: string)

  /** `if (prefixText)`: an absent or empty `Prefix` yields no folder. */
  function FolderOf(prefixText: Option<string>): (r: Option<Folder>)
    ensures r.Some? <==> prefixText.Some? && prefixText.value != []
    ensures r.Some? ==> r.value.name == r.value.prefix == prefixText.value
  {
    match prefixText
    case Some(t) => if t != [] then Some(Folder(t, t)) else None
    case None => None
  }

  /** The folders of a listing, in document order. */
  function ExtractFolders(prefixes: seq<Option<string>>): (r: seq<Folder>)
    ensures |r| <= |prefixes|
    ensures forall f :: f in r ==> f.name == f.prefix && f.prefix != [] && Some(f.prefix) in prefixes
  {
    Seqs.FilterMap(FolderOf, prefixes)
  }

  /** One folder per present, non-empty `Prefix`, in document order: folder k
      comes from element `Kept[k]`, those positions increase, and every
      element with a non-empty `Prefix` is among them. */
  lemma FoldersInDocumentOrder(prefixes: seq<Option<string>>)
    ensures var r := ExtractFolders(prefixes);
      var idx := Seqs.Kept(FolderOf, prefixes);
      && |r| == |idx|
      && (forall k :: 0 <= k < |r| ==>
            idx[k] < |prefixes| && prefixes[idx[k]] == Some(r[k].prefix)
            && r[k].name == r[k].prefix && r[k].prefix != [])
      && (forall k, l :: 0 <= k < l < |idx| ==> idx[k] < idx[l])
      && (forall i :: 0 <= i < |prefixes| ==>
            (i in idx <==> prefixes[i].Some? && prefixes[i].value != []))
  {
    Seqs.FilterMapAtKept(FolderOf, prefixes);
    Seqs.KeptSound(FolderOf, prefixes);
    Seqs.KeptIncreasing(FolderOf, prefixes);
    Seqs.KeptComplete(FolderOf, prefixes);
  }

  /** No folder exactly when no `Prefix` text is present and non-empty. */
  lemma FoldersEmpty(prefixes: seq<Option<string>>)
    ensures ExtractFolders(prefixes) == [] <==>
      forall i :: 0 <= i < |prefixes| ==> prefixes[i].None? || prefixes[i].value == []
  {
    Seqs.FilterMapEmpty(FolderOf, prefixes);
  }

  // ---------------------------------------------------------------------
  // Files

  /** A listed audio file. */
  datatype FileEntry = FileEntry(name: string, key: string, url: string, size: int)

  const AudioSuffix: string := ".mp3"

  /** `parseInt(sizeText || '0') || 0` (the Angular service). */
  function SizeOf(sizeText: Option<string>): int
  {
    JsNumber.ParseInt(TextOr(sizeText, "0")).GetOr(0)
  }

  /** `parseInt(sizeText) || 0` (the vanilla script), where an absent text
      reaches `parseInt` as `undefined` and is read as the text "undefined". */
  function ScriptSizeOf(sizeText: Option<string>): int
  {
    JsNumber.ParseInt(sizeText.GetOr("undefined")).GetOr(0)
  }

  /** The two spellings of the size parse agree on every input. */
  lemma SizeSpellingsAgree(sizeText: Option<string>)
    ensures ScriptSizeOf(sizeText) == SizeOf(sizeText)
  {
    match sizeText
    case None =>
      JsNumber.ParseIntUndefined();
      JsNumber.ParseIntEmptyAndZero();
    case Some(text) =>
      if text == [] {
        JsNumber.ParseIntEmptyAndZero();
      } else {
        assert TextOr(sizeText, "0") == text;
      }
  }

  /** A missing `Size`, or one without a decimal digit, is size 0. */
  lemma SizeWithoutDigitsIsZero(sizeText: Option<string>)
    requires sizeText.Some? ==> forall i :: 0 <= i < |sizeText.value| ==> !JsNumber.IsDecimalDigit(sizeText.value[i])
    ensures SizeOf(sizeText) == 0
  {
    JsNumber.ParseIntEmptyAndZero();
    if sizeText.Some? && sizeText.value != [] {
      JsNumber.ParseIntNeedsDigit(sizeText.value);
    }
  }

  /** `key && key.endsWith('.mp3') && size > 0`. */
  predicate Included(c: ContentsElement) {
    && c.key.Some? && c.key.value != []
    && EndsWith(c.key.value, AudioSuffix)
    && SizeOf(c.size) > 0
  }

  /** The entry a `Contents` element yields: display name with the first
      occurrence of `prefix` removed, the full key, its object URL, its size. */
  function FileOf(cfg: Config, prefix: string, c: ContentsElement): (r: Option<FileEntry>)
    ensures r.Some? <==> Included(c)
  {
    if Included(c) then
      var key := c.key.value;
      Some(FileEntry(ReplaceFirst(key, prefix), key, ObjectUrl(cfg, key), SizeOf(c.size)))
    else None
  }

  /** `FileOf` for a fixed bucket and folder, as the filter of the scan. */
  function FileFilter(cfg: Config, prefix: string): ContentsElement -> Option<FileEntry>
  {
    c => FileOf(cfg, prefix, c)
  }

  /** The files of a folder listing.  Each is an ".mp3" key of positive size
      whose name is the key with `prefix` removed once and whose URL is the
      key's object URL; there are never more files than `Contents` elements. */
  function ExtractFiles(cfg: Config, prefix: string, contents: seq<ContentsElement>): (r: seq<FileEntry>)
    ensures |r| <= |contents|
    ensures forall f :: f in r ==>
      && f.size > 0 && EndsWith(f.key, AudioSuffix)
      && f.name == ReplaceFirst(f.key, prefix)
      && f.url == ObjectUrl(cfg, f.key)
  {
    Seqs.FilterMap(FileFilter(cfg, prefix), contents)
  }

  /** A `Contents` element yields a file iff its key is present, ends with
      ".mp3" and its parsed size is positive; the files keep document order:
      file k comes from element `Kept[k]`, and those positions increase. */
  lemma FilesInDocumentOrder(cfg: Config, prefix: string, contents: seq<ContentsElement>)
    ensures var r := ExtractFiles(cfg, prefix, contents);
      var idx := Seqs.Kept(FileFilter(cfg, prefix), contents);
      && |r| == |idx|
      && (forall k :: 0 <= k < |r| ==>
            idx[k] < |contents| && contents[idx[k]].key == Some(r[k].key)
            && SizeOf(contents[idx[k]].size) == r[k].size)
      && (forall k, l :: 0 <= k < l < |idx| ==> idx[k] < idx[l])
      && (forall i :: 0 <= i < |contents| ==> (i in idx <==> Included(contents[i])))
  {
    var f := FileFilter(cfg, prefix);
    Seqs.FilterMapAtKept(f, contents);
    Seqs.KeptSound(f, contents);
    Seqs.KeptIncreasing(f, contents);
    Seqs.KeptComplete(f, contents);
  }

  /** Some `Contents` element passes the file filter. */
  predicate SomeIncluded(contents: seq<ContentsElement>) {
    exists i :: 0 <= i < |contents| && Included(contents[i])
  }

  /** No file exactly when no `Contents` element passes the filter. */
  lemma FilesEmpty(cfg: Config, prefix: string, contents: seq<ContentsElement>)
    ensures ExtractFiles(cfg, prefix, contents) == [] <==>
      forall i :: 0 <= i < |contents| ==> !Included(contents[i])
  {
    Seqs.FilterMapEmpty(FileFilter(cfg, prefix), contents);
  }

  /** The name of a key inside the folder is the rest of the key; with an
      empty folder prefix it is the whole key. */
  lemma FileNameInsideFolder(cfg: Config, prefix: string, c: ContentsElement)
    requires Included(c)
    ensures |prefix| <= |c.key.value| && c.key.value[..|prefix|] == prefix ==>
      FileOf(cfg, prefix, c).value.name == c.key.value[|prefix|..]
    ensures prefix == [] ==> FileOf(cfg, prefix, c).value.name == c.key.value
  {
    if |prefix| <= |c.key.value| && c.key.value[..|prefix|] == prefix {
      ReplaceFirstLeading(c.key.value, prefix);
    }
    ReplaceFirstEmpty(c.key.value);
  }

  /** An entry whose size parses to 0 or less, such as the zero-byte
      placeholder S3 lists for a folder itself, adds no file wherever it
      stands in the listing; a size text of "0" is such a size. */
  lemma EmptyEntrySkipped(cfg: Config, prefix: string, before: seq<ContentsElement>,
                          c: ContentsElement, after: seq<ContentsElement>)
    requires SizeOf(c.size) <= 0
    ensures ExtractFiles(cfg, prefix, before + [c] + after)
      == ExtractFiles(cfg, prefix, before) + ExtractFiles(cfg, prefix, after)
    ensures SizeOf(Some("0")) == 0
  {
    var f := FileFilter(cfg, prefix);
    Seqs.FilterMapAppend(f, before + [c], after);
    Seqs.FilterMapAppend(f, before, [c]);
    assert [c][1..] == [];
    assert Seqs.FilterMap(f, [c]) == [] + Seqs.FilterMap(f, []);
    assert Seqs.FilterMap(f, before) + [] == Seqs.FilterMap(f, before);
    JsNumber.ParseIntEmptyAndZero();
  }

  /** An ".mp3" entry of positive size under the folder is listed under the
      rest of its key, with the full key, its object URL and its size. */
  lemma SongInFolder(cfg: Config, prefix: string, name: string, size: Option<string>)
    requires EndsWith(name, AudioSuffix) && SizeOf(size) > 0
    ensures FileOf(cfg, prefix, ContentsElement(Some(prefix + name), size))
      == Some(FileEntry(name, prefix + name, ObjectUrl(cfg, prefix + name), SizeOf(size)))
  {
    EndsWithAppend(prefix, name, AudioSuffix);
    ReplaceFirstPrefixed(prefix, name);
  }
}

=== FILE: s3service.dfy ===
/** The Angular `S3Service`: a mutable bucket configuration and the two
    listing calls, which never fail.  Whatever goes wrong between the request
    and the scan of the listing (a rejected fetch, a non-ok status, an `Error`
    element) is swallowed and replaced by fixed mock data.  The service holds
    its configuration as a value: `SetConfig` returns the updated service. */
module S3Service {
  import opened Wrappers
  import opened JsString
  import opened Endpoints
  import opened Listing

  /** The service's one piece of state. */
  datatype Service = Service(config: Config)

  /** The configuration a fresh service starts with. */
  const DefaultConfig: Config := Config("tasty-mixes", "us-east-1")

  /** A fresh service, configured with the real bucket. */
  function New(): (s: Service)
    ensures s.config == DefaultConfig && IsConfigured(s.config)
  {
    Service(DefaultConfig)
  }

  /** `setConfig`: replace the configuration. */
  function SetConfig(s: Service, cfg: Config): Service {
    Service(cfg)
  }

  /** `getConfig`: a copy of the configuration, which as a value is the
      configuration itself. */
  function GetConfig(s: Service): Config {
    s.config
  }

  /** `isConfigured` of the service's current configuration. */
  predicate Configured(s: Service) {
    IsConfigured(s.config)
  }

  /** What is set is what is read back, setting what was read changes
      nothing, and the later of two settings wins. */
  lemma ConfigRoundTrip(s: Service, c1: Config, c2: Config)
    ensures GetConfig(SetConfig(s, c1)) == c1
    ensures SetConfig(s, GetConfig(s)) == s
    ensures SetConfig(SetConfig(s, c1), c2) == SetConfig(s, c2)
    ensures Configured(SetConfig(s, c1)) <==> c1.bucketName != BucketSentinel && c1.region != RegionSentinel
  {
  }

  // ---------------------------------------------------------------------
  // Fallback data

  /** The folders returned when the root listing fails, in this order. */
  const MockFolders: seq<Folder> := [
    Folder("My-Mixes/", "My-Mixes/"),
    Folder("Electronic/", "Electronic/"),
    Folder("Rock/", "Rock/"),
    Folder("Jazz/", "Jazz/")
  ]

  /** The files returned when the listing of `prefix` fails, in this order. */
  function MockFiles(prefix: string): seq<FileEntry> {
    [ FileEntry("Song-1.mp3", prefix + "Song-1.mp3", "#", 5000000),
      FileEntry("Song-2.mp3", prefix + "Song-2.mp3", "#", 7000000) ]
  }

  /** The fallback folders are named after their prefixes, and every
      fallback file is an ".mp3" key under the folder, of positive size,
      whose name is what stripping the folder prefix from its key yields. */
  lemma MockFilesShape(prefix: string)
    ensures forall f :: f in MockFolders ==> f.name == f.prefix && f.prefix != []
    ensures forall f :: f in MockFiles(prefix) ==>
      && f.size > 0 && EndsWith(f.key, AudioSuffix) && f.url == "#"
      && f.key == prefix + f.name && f.name == ReplaceFirst(f.key, prefix)
  {
    MockSong(prefix, "Song-1.mp3");
    MockSong(prefix, "Song-2.mp3");
  }

  lemma MockSong(prefix: string, name: string)
    requires name == "Song-1.mp3" || name == "Song-2.mp3"
    ensures EndsWith(prefix + name, AudioSuffix) && ReplaceFirst(prefix + name, prefix) == name
  {
    assert name[|name| - 4..] == AudioSuffix;
    EndsWithAppend(prefix, name, AudioSuffix);
    ReplaceFirstPrefixed(prefix, name);
  }

  // ---------------------------------------------------------------------
  // The listing calls; `respond` is the network, asked once per call.

  /** `fetchFolders`: the folders of the root listing, or the mock folders
      if anything fails.  Each folder is named after its non-empty prefix. */
  function FetchFolders(s: Service, respond: string -> Response): (r: seq<Folder>)
    ensures forall f :: f in r ==> f.name == f.prefix && f.prefix != []
  {
    MockFilesShape([]);
    match Receive(respond(FoldersUrl(s.config)))
    case Failure(_) => MockFolders
    case Success(doc) => ExtractFolders(doc.commonPrefixes)
  }

  /** `fetchFiles`: the audio files of one folder listing, or the two mock
      files if anything fails.  Every file, real or mock, is an ".mp3" key of
      positive size named by stripping `prefix` once from its key; a real
      file's URL is its object URL. */
  function FetchFiles(s: Service, prefix: string, respond: string -> Response): (r: seq<FileEntry>)
    ensures forall f :: f in r ==>
      && f.size > 0 && EndsWith(f.key, AudioSuffix)
      && f.name == ReplaceFirst(f.key, prefix)
      && (f.url == ObjectUrl(s.config, f.key) || f.url == "#")
  {
    MockFilesShape(prefix);
    match Receive(respond(FilesUrl(s.config, prefix)))
    case Failure(_) => MockFiles(prefix)
    case Success(doc) => ExtractFiles(s.config, prefix, doc.contents)
  }

  /** The root listing's outcome, decided by the response alone: a rejected
      fetch, a status outside 200-299 or an `Error` element gives exactly the
      four mock folders; otherwise the folders of the listing's prefixes.
      The configuration is not checked first: an unconfigured service asks
      the sentinel bucket all the same. */
  lemma FetchFoldersOutcome(s: Service, respond: string -> Response)
    ensures var resp := respond(FoldersUrl(s.config));
      if resp.HttpResponse? && IsOk(resp.status) && resp.doc.error.None?
      then FetchFolders(s, respond) == ExtractFolders(resp.doc.commonPrefixes)
      else FetchFolders(s, respond) == MockFolders && |FetchFolders(s, respond)| == 4
  {
    ReceiveSuccess(respond(FoldersUrl(s.config)));
  }

  /** The folder listing's outcome: failure gives exactly the two mock files
      for `prefix`, in order; otherwise the audio files of the listing. */
  lemma FetchFilesOutcome(s: Service, prefix: string, respond: string -> Response)
    ensures var resp := respond(FilesUrl(s.config, prefix));
      if resp.HttpResponse? && IsOk(resp.status) && resp.doc.error.None?
      then FetchFiles(s, prefix, respond) == ExtractFiles(s.config, prefix, resp.doc.contents)
      else FetchFiles(s, prefix, respond) == MockFiles(prefix) && |FetchFiles(s, prefix, respond)| == 2
  {
    ReceiveSuccess(respond(FilesUrl(s.config, prefix)));
  }

  /** An `Error` element in the root listing yields the mock folders
      whatever prefixes the rest of the body holds. */
  lemma FoldersErrorElementGivesMocks(s: Service, respond: string -> Response)
    requires var resp := respond(FoldersUrl(s.config)); resp.HttpResponse? && resp.doc.error.Some?
    ensures FetchFolders(s, respond) == MockFolders
  {
  }

  /** An `Error` element in a folder listing yields the mock files whatever
      contents the rest of the body holds. */
  lemma FilesErrorElementGivesMocks(s: Service, prefix: string, respond: string -> Response)
    requires var resp := respond(FilesUrl(s.config, prefix)); resp.HttpResponse? && resp.doc.error.Some?
    ensures FetchFiles(s, prefix, respond) == MockFiles(prefix)
  {
  }

  /** Each call asks for one URL only: the root listing for folders and the
      encoded-prefix listing for files.  Networks that agree on that URL
      give the same result. */
  lemma OneRequestPerCall(s: Service, prefix: string, r1: string -> Response, r2: string -> Response)
    ensures r1(FoldersUrl(s.config)) == r2(FoldersUrl(s.config)) ==>
      FetchFolders(s, r1) == FetchFolders(s, r2)
    ensures r1(FilesUrl(s.config, prefix)) == r2(FilesUrl(s.config, prefix)) ==>
      FetchFiles(s, prefix, r1) == FetchFiles(s, prefix, r2)
  {
  }

  /** An empty folder list never comes from a failure: it means the listing
      succeeded and held no non-empty prefix. */
  lemma EmptyFoldersMeansEmptyListing(s: Service, respond: string -> Response)
    requires FetchFolders(s, respond) == []
    ensures var resp := respond(FoldersUrl(s.config));
      && resp.HttpResponse? && IsOk(resp.status) && resp.doc.error.None?
      && forall i :: 0 <= i < |resp.doc.commonPrefixes| ==>
           resp.doc.commonPrefixes[i].None? || resp.doc.commonPrefixes[i].value == []
  {
    var resp := respond(FoldersUrl(s.config));
    ReceiveSuccess(resp);
    FoldersEmpty(resp.doc.commonPrefixes);
  }

  /** A successful file listing serves every file from its object URL. */
  lemma ListedFilesHaveObjectUrls(s: Service, prefix: string, respond: string -> Response)
    requires Receive(respond(FilesUrl(s.config, prefix))).Success?
    ensures forall f :: f in FetchFiles(s, prefix, respond) ==> f.url == ObjectUrl(s.config, f.key)
  {
  }
}

=== FILE: seqs.dfy ===
/** Order-preserving filtering of sequences.  Both listing loops of the
    jukebox (`forEach` over `CommonPrefixes` and over `Contents`) push an
    entry for some elements and skip the others; `FilterMap` is that loop,
    and `Kept` names the positions whose entries survive. */
module Seqs {
  import opened Wrappers

  /** The images, in order, of the elements that `f` maps to `Some`. */
  function FilterMap<A, B>(f: A -> Option<B>, s: seq<A>): (r: seq<B>)
    ensures |r| <= |s|
    ensures forall b :: b in r ==> exists a :: a in s && f(a) == Some(b)
  {
    if s == [] then []
    else Keep(f(s[0])) + FilterMap(f, s[1..])
  }

  /** The entry one element contributes: one value or none. */
  function Keep<B>(o: Option<B>): (r: seq<B>)
    ensures |r| <= 1
  {
    match o
    case Some(b) => [b]
    case None => []
  }

  /** The positions of `s` that `f` maps to `Some`, in increasing order. */
  function Kept<A, B>(f: A -> Option<B>, s: seq<A>): seq<nat>
  {
    if s == [] then []
    else
      var rest := Kept(f, s[1..]);
      (if f(s[0]).Some? then [0] else []) + Shifted(rest)
  }

  /** Every position moved one place to the right. */
  function Shifted(idx: seq<nat>): (r: seq<nat>)
    ensures |r| == |idx|
    ensures forall k :: 0 <= k < |r| ==> r[k] == idx[k] + 1
  {
    seq(|idx|, k requires 0 <= k < |idx| => idx[k] + 1)
  }

  /** Every position `Kept` lists is in range and kept by `f`. */
  lemma {:induction false} KeptSound<A, B>(f: A -> Option<B>, s: seq<A>)
    ensures forall k :: 0 <= k < |Kept(f, s)| ==> Kept(f, s)[k] < |s| && f(s[Kept(f, s)[k]]).Some?
  {
    if s != [] {
      var rest := Kept(f, s[1..]);
      KeptSound(f, s[1..]);
      var head: seq<nat> := if f(s[0]).Some? then [0] else [];
      var idx := Kept(f, s);
      assert idx == head + Shifted(rest);
      forall k | 0 <= k < |idx|
        ensures idx[k] < |s| && f(s[idx[k]]).Some?
      {
        if k >= |head| {
          var j := k - |head|;
          assert idx[k] == rest[j] + 1;
          assert s[idx[k]] == s[1..][rest[j]];
        }
      }
    }
  }

  /** `Kept` lists positions in strictly increasing order. */
  lemma {:induction false} KeptIncreasing<A, B>(f: A -> Option<B>, s: seq<A>)
    ensures forall k, l :: 0 <= k < l < |Kept(f, s)| ==> Kept(f, s)[k] < Kept(f, s)[l]
  {
    if s != [] {
      var rest := Kept(f, s[1..]);
      KeptIncreasing(f, s[1..]);
      var head: seq<nat> := if f(s[0]).Some? then [0] else [];
      assert Kept(f, s) == head + Shifted(rest);
      ShiftedIncreasing(head, rest);
    }
  }

  /** Shifting an increasing sequence and putting a leading 0 in front keeps
      it increasing. */
  lemma ShiftedIncreasing(head: seq<nat>, rest: seq<nat>)
    requires head == [] || head == [0]
    requires forall k, l :: 0 <= k < l < |rest| ==> rest[k] < rest[l]
    ensures var idx := head + Shifted(rest);
      forall k, l :: 0 <= k < l < |idx| ==> idx[k] < idx[l]
  {
    var idx := head + Shifted(rest);
    forall k, l | 0 <= k < l < |idx|
      ensures idx[k] < idx[l]
    {
      assert idx[l] == rest[l - |head|] + 1;
      if k >= |head| {
        assert idx[k] == rest[k - |head|] + 1;
      }
    }
  }

  /** Every position `f` keeps is listed by `Kept`. */
  lemma {:induction false} KeptComplete<A, B>(f: A -> Option<B>, s: seq<A>)
    ensures forall i :: 0 <= i < |s| && f(s[i]).Some? ==> i in Kept(f, s)
  {
    if s != [] {
      var rest := Kept(f, s[1..]);
      KeptComplete(f, s[1..]);
      var head: seq<nat> := if f(s[0]).Some? then [0] else [];
      var idx := Kept(f, s);
      assert idx == head + Shifted(rest);
      forall i | 0 <= i < |s| && f(s[i]).Some?
        ensures i in idx
      {
        if i == 0 {
          assert idx[0] == 0;
        } else {
          assert s[1..][i - 1] == s[i];
          var j :| 0 <= j < |rest| && rest[j] == i - 1;
          assert idx[|head| + j] == i;
        }
      }
    }
  }

  /** Entry k of `r` is the image under `f` of element `idx[k]` of `s`. */
  ghost predicate ImagesAt<A, B>(f: A -> Option<B>, s: seq<A>, idx: seq<nat>, r: seq<B>)
  {
    && |r| == |idx|
    && forall k :: 0 <= k < |r| ==> idx[k] < |s| && f(s[idx[k]]) == Some(r[k])
  }

  /** Prepending one element extends a position-to-image correspondence. */
  lemma ImagesAtCons<A, B>(f: A -> Option<B>, s: seq<A>, idx: seq<nat>, r: seq<B>)
    requires s != []
    requires ImagesAt(f, s[1..], idx, r)
    ensures ImagesAt(f, s, (if f(s[0]).Some? then [0] else []) + Shifted(idx), Keep(f(s[0])) + r)
  {
    var head: seq<nat> := if f(s[0]).Some? then [0] else [];
    var idx' := head + Shifted(idx);
    var r' := Keep(f(s[0])) + r;
    forall k | 0 <= k < |r'|
      ensures idx'[k] < |s| && f(s[idx'[k]]) == Some(r'[k])
    {
      if k >= |head| {
        assert idx'[k] == idx[k - |head|] + 1;
        assert s[idx'[k]] == s[1..][idx[k - |head|]];
      }
    }
  }

  /** Entry k of the filtered sequence is the image of element `Kept(f, s)[k]`:
      the filter keeps document order. */
  lemma {:induction false} FilterMapAtKept<A, B>(f: A -> Option<B>, s: seq<A>)
    ensures ImagesAt(f, s, Kept(f, s), FilterMap(f, s))
  {
    if s != [] {
      FilterMapAtKept(f, s[1..]);
      ImagesAtCons(f, s, Kept(f, s[1..]), FilterMap(f, s[1..]));
    }
  }

  /** Filtering a concatenation filters each part. */
  lemma {:induction false} FilterMapAppend<A, B>(f: A -> Option<B>, s: seq<A>, t: seq<A>)
    ensures FilterMap(f, s + t) == FilterMap(f, s) + FilterMap(f, t)
  {
    if s == [] {
      assert s + t == t;
    } else {
      assert (s + t)[1..] == s[1..] + t;
      FilterMapAppend(f, s[1..], t);
    }
  }

  /** The filtered sequence is empty exactly when no element is kept. */
  lemma {:induction false} FilterMapEmpty<A, B>(f: A -> Option<B>, s: seq<A>)
    ensures FilterMap(f, s) == [] <==> forall i :: 0 <= i < |s| ==> f(s[i]).None?
  {
    if s != [] {
      FilterMapEmpty(f, s[1..]);
      assert forall i :: 1 <= i < |s| ==> s[i] == s[1..][i - 1];
    }
  }

  /** Filtering one element further appends that element's image, if any:
      the step of a left-to-right scan. */
  lemma FilterMapSnoc<A, B>(f: A -> Option<B>, s: seq<A>, i: nat)
    requires i < |s|
    ensures FilterMap(f, s[..i + 1]) == FilterMap(f, s[..i]) + Keep(f(s[i]))
  {
    var c := s[i];
    FilterMapAppend(f, s[..i], [c]);
    assert s[..i + 1] == s[..i] + [c];
    assert [c][1..] == [];
    assert FilterMap(f, [c]) == Keep(f(c)) + FilterMap(f, []);
  }
}

=== FILE: uri.dfy ===
/** `encodeURIComponent` (ECMA-262, section 19.2.6.5, through the abstract
    operation Encode) and, as its independent partner, `decodeURIComponent`
    (section 19.2.6.2, through Decode with an empty reserved set).  A code
    point outside the unreserved set becomes its UTF-8 octets, each written as
    a percent triplet "%XY" with upper-case hex digits (section 2.1 of
    RFC 3986).  Lone surrogates, on which encoding throws, are not `char`s. */
module Uri {
  import opened Wrappers

  type Byte = b: int | 0 <= b < 256

  /** uriAlpha, DecimalDigit and uriMark: the characters left as they are. */
  predicate IsUnreserved(c: char) {
    || ('A' <= c <= 'Z') || ('a' <= c <= 'z') || ('0' <= c <= '9')
    || c == '-' || c == '_' || c == '.' || c == '!' || c == '~'
    || c == '*' || c == '\'' || c == '(' || c == ')'
  }

  const HexDigits: string := "0123456789ABCDEF"

  /** The value of a hex digit in either case, as Decode accepts it. */
  function HexValue(c: char): (v: Option<nat>)
    ensures v.Some? ==> v.value < 16
  {
    if '0' <= c <= '9' then Some(c as int - '0' as int)
    else if 'A' <= c <= 'F' then Some(c as int - 'A' as int + 10)
    else if 'a' <= c <= 'f' then Some(c as int - 'a' as int + 10)
    else None
  }

  lemma HexDigitValue(n: nat)
    requires n < 16
    ensures HexValue(HexDigits[n]) == Some(n)
    ensures IsUnreserved(HexDigits[n])
  {
  }

  /** One octet as "%XY". */
  function Triplet(b: Byte): string
  {
    ['%', HexDigits[b / 16], HexDigits[b % 16]]
  }

  function Triplets(bs: seq<Byte>): (r: string)
    ensures |r| == 3 * |bs|
  {
    if bs == [] then [] else Triplet(bs[0]) + Triplets(bs[1..])
  }

  /** The UTF-8 octets of one code point. */
  function Utf8Encode(c: char): (bs: seq<Byte>)
    ensures 1 <= |bs| <= 4
  {
    var n := c as int;
    if n < 0x80 then [n]
    else if n < 0x800 then [0xC0 + n / 64, 0x80 + n % 64]
    else if n < 0x10000 then [0xE0 + n / 4096, 0x80 + (n / 64) % 64, 0x80 + n % 64]
    else [0xF0 + n / 262144, 0x80 + (n / 4096) % 64, 0x80 + (n / 64) % 64, 0x80 + n % 64]
  }

  /** One code point as encodeURIComponent writes it. */
  function EncodeChar(c: char): string
  {
    if IsUnreserved(c) then [c] else Triplets(Utf8Encode(c))
  }

  /** `encodeURIComponent(s)`.  Its output is plain ASCII: unreserved
      characters and the '%' of each triplet, so in particular no '/'. */
  function EncodeURIComponent(s: string): (r: string)
    ensures forall i :: 0 <= i < |r| ==> IsUnreserved(r[i]) || r[i] == '%'
  {
    if s == [] then []
    else
      EncodeCharAlphabet(s[0]);
      EncodeChar(s[0]) + EncodeURIComponent(s[1..])
  }

  lemma {:induction false} TripletsAlphabet(bs: seq<Byte>)
    ensures forall i :: 0 <= i < |Triplets(bs)| ==> IsUnreserved(Triplets(bs)[i]) || Triplets(bs)[i] == '%'
  {
    if bs != [] {
      TripletsAlphabet(bs[1..]);
      HexDigitValue(bs[0] / 16);
      HexDigitValue(bs[0] % 16);
      var r := Triplets(bs);
      assert r == Triplet(bs[0]) + Triplets(bs[1..]);
      forall i | 3 <= i < |r|
        ensures IsUnreserved(r[i]) || r[i] == '%'
      {
        assert r[i] == Triplets(bs[1..])[i - 3];
      }
    }
  }

  lemma EncodeCharAlphabet(c: char)
    ensures forall i :: 0 <= i < |EncodeChar(c)| ==> IsUnreserved(EncodeChar(c)[i]) || EncodeChar(c)[i] == '%'
  {
    if !IsUnreserved(c) {
      TripletsAlphabet(Utf8Encode(c));
    }
  }

  // ---------------------------------------------------------------------
  // Decoding, the reference the encoder is checked against.

  /** The number of octets a sequence led by `b` has; 0 for a byte that
      cannot lead one (a continuation byte, or more than four leading ones). */
  function Utf8Length(b: Byte): nat
  {
    if b < 0x80 then 1
    else if b < 0xC0 then 0
    else if b < 0xE0 then 2
    else if b < 0xF0 then 3
    else if b < 0xF8 then 4
    else 0
  }

  predicate IsContinuation(b: Byte) {
    0x80 <= b < 0xC0
  }

  /** The code point a whole UTF-8 sequence denotes; `None` for a malformed,
      overlong, surrogate or out-of-range sequence (where Decode throws). */
  function Utf8Decode(bs: seq<Byte>): Option<char>
  {
    if |bs| == 0 || Utf8Length(bs[0]) != |bs| then None
    else if |bs| == 1 then Some(bs[0] as char)
    else if |bs| == 2 then
      if !IsContinuation(bs[1]) then None
      else
        var n := Payload(bs[0], 0xC0) * 64 + Payload(bs[1], 0x80);
        if n < 0x80 then None else Some(n as char)
    else if |bs| == 3 then
      if !IsContinuation(bs[1]) || !IsContinuation(bs[2]) then None
      else
        var n := Payload(bs[0], 0xE0) * 4096 + Payload(bs[1], 0x80) * 64 + Payload(bs[2], 0x80);
        if n < 0x800 || (0xD800 <= n < 0xE000) then None else Some(n as char)
    else
      if !IsContinuation(bs[1]) || !IsContinuation(bs[2]) || !IsContinuation(bs[3]) then None
      else
        var n := Payload(bs[0], 0xF0) * 262144 + Payload(bs[1], 0x80) * 4096
          + Payload(bs[2], 0x80) * 64 + Payload(bs[3], 0x80);
        if n < 0x10000 || n >= 0x110000 then None else Some(n as char)
  }

  /** The bits of an octet below its marker bits. */
  function Payload(b: Byte, marker: Byte): int
  {
    b as int - marker as int
  }

  /** The octet of the triplet at position `i`, if one is there. */
  function EscapeAt(s: string, i: nat): Option<Byte>
  {
    if i + 3 <= |s| && s[i] == '%' then
      match (HexValue(s[i + 1]), HexValue(s[i + 2]))
      case (Some(hi), Some(lo)) => Some(hi * 16 + lo)
      case _ => None
    else None
  }

  /** The octets of `n` consecutive triplets starting at position `i`. */
  function EscapesAt(s: string, i: nat, n: nat): Option<seq<Byte>>
    decreases n
  {
    if n == 0 then Some([])
    else
      match EscapeAt(s, i)
      case None => None
      case Some(b) =>
        match EscapesAt(s, i + 3, n - 1)
        case None => None
        case Some(rest) => Some([b] + rest)
  }

  function Prepend(c: char, o: Option<string>): Option<string>
  {
    match o
    case None => None
    case Some(t) => Some([c] + t)
  }

  /** `decodeURIComponent(s)`; `None` where it throws URIError. */
  function DecodeURIComponent(s: string): Option<string>
    decreases |s|
  {
    if s == [] then Some([])
    else if s[0] != '%' then Prepend(s[0], DecodeURIComponent(s[1..]))
    else
      match EscapeAt(s, 0)
      case None => None
      case Some(b) =>
        var n := Utf8Length(b);
        if n == 0 || 3 * n > |s| then None
        else
          match EscapesAt(s, 0, n)
          case None => None
          case Some(bs) =>
            match Utf8Decode(bs)
            case None => None
            case Some(c) => Prepend(c, DecodeURIComponent(s[3 * n..]))
  }

  // ---------------------------------------------------------------------
  // The round trip.

  lemma DivMod64(n: int)
    requires n >= 0
    ensures n == (n / 64) * 64 + n % 64
    ensures n / 4096 == (n / 64) / 64
    ensures n / 262144 == (n / 4096) / 64
  {
    var q := n / 64;
    var q2 := q / 64;
    assert n == q * 64 + n % 64;
    assert q == q2 * 64 + q % 64;
    assert n == q2 * 4096 + (q % 64) * 64 + n % 64;
    assert 0 <= (q % 64) * 64 + n % 64 < 4096;
    var q3 := n / 4096;
    assert n == q3 * 4096 + n % 4096;
    assert q3 == q2;
    var q4 := q3 / 64;
    assert q3 == q4 * 64 + q3 % 64;
    assert n == q4 * 262144 + (q3 % 64) * 4096 + n % 4096;
    assert 0 <= (q3 % 64) * 4096 + n % 4096 < 262144;
  }

  /** The octets of a code point decode back to it. */
  lemma Utf8RoundTrip(c: char)
    ensures Utf8Decode(Utf8Encode(c)) == Some(c)
    ensures Utf8Length(Utf8Encode(c)[0]) == |Utf8Encode(c)|
  {
    var n := c as int;
    DivMod64(n);
    DivMod64(n / 64);
    if n >= 0x10000 {
      assert n / 262144 <= 4;
      var bs := Utf8Encode(c);
      assert Payload(bs[0], 0xF0) * 262144 + Payload(bs[1], 0x80) * 4096 == (n / 4096) * 4096;
    } else if n >= 0x800 {
      var bs := Utf8Encode(c);
      assert Payload(bs[0], 0xE0) * 4096 + Payload(bs[1], 0x80) * 64 == (n / 64) * 64;
    }
  }

  /** Reading a triplet gives its octet back. */
  lemma EscapeAtTriplet(s: string, i: nat, b: Byte)
    requires i + 3 <= |s| && s[i..i + 3] == Triplet(b)
    ensures EscapeAt(s, i) == Some(b)
  {
    HexDigitValue(b / 16);
    HexDigitValue(b % 16);
    var w := s[i..i + 3];
    assert s[i] == w[0] && s[i + 1] == w[1] && s[i + 2] == w[2];
  }

  /** Reading the triplets of some octets gives those octets back. */
  lemma {:induction false} EscapesAtTriplets(s: string, i: nat, bs: seq<Byte>)
    requires i + 3 * |bs| <= |s| && s[i..i + 3 * |bs|] == Triplets(bs)
    ensures EscapesAt(s, i, |bs|) == Some(bs)
    decreases |bs|
  {
    if bs != [] {
      var w := s[i..i + 3 * |bs|];
      assert w == Triplet(bs[0]) + Triplets(bs[1..]);
      assert s[i..i + 3] == w[..3];
      assert s[i + 3..i + 3 + 3 * |bs[1..]|] == w[3..];
      EscapeAtTriplet(s, i, bs[0]);
      EscapesAtTriplets(s, i + 3, bs[1..]);
      assert [bs[0]] + bs[1..] == bs;
    }
  }

  /** Decoding the triplets of a code point's octets followed by `t` yields
      that code point followed by the decoding of `t`. */
  lemma DecodeTriplets(c: char, t: string)
    ensures DecodeURIComponent(Triplets(Utf8Encode(c)) + t) == Prepend(c, DecodeURIComponent(t))
  {
    var bs := Utf8Encode(c);
    var w := Triplets(bs);
    var s := w + t;
    Utf8RoundTrip(c);
    assert s[0..3 * |bs|] == w;
    EscapesAtTriplets(s, 0, bs);
    assert w == Triplet(bs[0]) + Triplets(bs[1..]);
    assert s[0..3] == w[..3] == Triplet(bs[0]);
    EscapeAtTriplet(s, 0, bs[0]);
    assert s[0] == '%';
    assert s[3 * |bs|..] == t;
  }

  /** Decoding the encoding of one code point followed by `t` yields that
      code point followed by the decoding of `t`. */
  lemma DecodeEncodeChar(c: char, t: string)
    ensures DecodeURIComponent(EncodeChar(c) + t) == Prepend(c, DecodeURIComponent(t))
  {
    var s := EncodeChar(c) + t;
    if IsUnreserved(c) {
      assert s[0] == c && s[1..] == t;
    } else {
      DecodeTriplets(c, t);
    }
  }

  /** `decodeURIComponent(encodeURIComponent(s)) == s`. */
  lemma {:induction false} DecodeEncode(s: string)
    ensures DecodeURIComponent(EncodeURIComponent(s)) == Some(s)
  {
    if s != [] {
      DecodeEncode(s[1..]);
      DecodeEncodeChar(s[0], EncodeURIComponent(s[1..]));
      assert [s[0]] + s[1..] == s;
    }
  }

  /** Distinct texts encode differently, since decoding recovers each. */
  lemma EncodeInjective(s: string, t: string)
    requires EncodeURIComponent(s) == EncodeURIComponent(t)
    ensures s == t
  {
    DecodeEncode(s);
    DecodeEncode(t);
  }

  /** The encoder works one code point at a time, so it distributes over
      concatenation. */
  lemma {:induction false} EncodeAppend(s: string, t: string)
    ensures EncodeURIComponent(s + t) == EncodeURIComponent(s) + EncodeURIComponent(t)
  {
    if s == [] {
      assert s + t == t;
    } else {
      assert (s + t)[0] == s[0];
      assert (s + t)[1..] == s[1..] + t;
      EncodeAppend(s[1..], t);
    }
  }

  /** Unreserved text passes through the encoder unchanged. */
  lemma {:induction false} EncodeUnreserved(x: string)
    requires forall i :: 0 <= i < |x| ==> IsUnreserved(x[i])
    ensures EncodeURIComponent(x) == x
  {
    if x != [] {
      EncodeUnreserved(x[1..]);
      assert [x[0]] + x[1..] == x;
    }
  }

  /** A space becomes "%20" and a slash "%2F". */
  lemma EncodeExamples()
    ensures EncodeChar(' ') == "%20"
    ensures EncodeChar('/') == "%2F"
  {
    assert Utf8Encode(' ') == [0x20];
    assert Utf8Encode('/') == [0x2F];
    assert Triplets([0x20]) == Triplet(0x20) + [];
    assert Triplets([0x2F]) == Triplet(0x2F) + [];
  }
}

=== FILE: wrappers.dfy ===
/** Optional values and success/failure results, used wherever the
    listing code reads an element that may be absent or a step that may throw. */
module Wrappers {

  /** A value that may be absent: JavaScript's `undefined` from `?.` chains. */
  datatype Option<+T> = None | Some(value: T) {

    /** The carried value, or `default` when there is none. */
    function GetOr(default: T): T {
      match this
      case Some(v) => v
      case None => default
    }
  }

  /** The outcome of a step that either produces a value or throws an error. */
  datatype Result<+T, +E> = Success(value: T) | Failure(error: E)
}
